=== FILE: README.md ===
# Order cache and service of go-microservice, modelled in Dafny

The model covers the order-serving core of the `go-microservice` repository:

- the bounded LRU cache of orders (`internal/repository/cache-repository.go`). It is split into
  a generic least-recently-used structure, `Lru`, and the repository around it,
  `CacheRepository`. The repository adds context checks, error wrapping, `LoadFromDB` and
  `maxCacheSize = 1000`;
- the cache-aside order service (`internal/service/service.go`), `OrderService`. Its
  collaborators are the durable store (`DurableStore`, reduced to its rows) and the cache;
- the earlier unbounded cache and service (`internal/orders/`), `LegacyCache` and
  `LegacyService`;
- the broker-list parsing of the producer (`producer/main.go`), `Brokers`. This covers
  `trimSpace`, `kafkaSplit`, `splitAndTrim` and the non-empty filter in `main`;
- the `validate:` struct tags of the order aggregate (`internal/model/order.go`), `Validation`.

Supporting modules:

- `Errors` holds contexts, Go errors (a `%w` wrap is `Wrapped(msg, cause)`), `Result` and
  `Status`.
- `Trace` records which collaborator calls a service operation made, in order.
- `OrderModel` holds the order aggregate.
- `Seqs` holds sequence and map helpers, plus `Snapshot`, a map iteration in an unspecified order.

Every operation is a pure function of the state, or a method whose result is specified up to
the order of the values it lists.
Store failures and context states are arguments, so each contract covers every way a
collaborator can answer. Each operation has a partner:

- a reference definition it is proved equal to (`TrimSpaceScan`/`TrimSpace`,
  `KafkaSplitScan`/`KafkaSplit`, `LoadOrders`/`Lru.Fill`, `OrderErrors`/`OrderValid`);
- an inverse (`Join` of `Segments`, `GetByID` after `Save`);
- or an invariant it preserves (the LRU invariant, `Coherent`).

## Model

| member | source | states |
|---|---|---|
| Lru.Empty | internal/repository/cache-repository.go:38-44 | a new cache is valid, has the given capacity and holds nothing |
| Lru.SizeCountsEntries | internal/repository/cache-repository.go:145-149 | the list length `Size` reports equals the number of cached entries and never exceeds the capacity |
| Lru.EvictOverflow | internal/repository/cache-repository.go:88-96 | the eviction loop removes exactly the keys at the front of the list beyond the capacity and keeps every other entry unchanged |
| Lru.EvictKeepsInvariant | internal/repository/cache-repository.go:88-96 | after eviction the list and the map still hold the same keys, each once, and the list fits the capacity |
| Lru.Touch | internal/repository/cache-repository.go:78-87 | storing sets the entry and moves a known key to the back of the list, or appends a new key there |
| Lru.Put | internal/repository/cache-repository.go:75-97 | the locked part of `Save` keeps the invariant and the capacity, stores the value under its key, and leaves every other surviving entry unchanged |
| Lru.PutKnownKey | internal/repository/cache-repository.go:78-81 | updating a cached key replaces its value, moves it to the back, keeps the order of the others and evicts nothing |
| Lru.PutNewKeyWithRoom | internal/repository/cache-repository.go:82-87 | a new key in a cache with room is appended and nothing is evicted; the size grows by one |
| Lru.PutNewKeyWhenFull | internal/repository/cache-repository.go:82-96 | a new key in a full cache evicts exactly the least recently used entry; the size stays at the capacity |
| Lru.Promote | internal/repository/cache-repository.go:114 | a hit moves only that key to the back: the other keys keep their relative order, and the entries and the size do not change |
| Lru.Fill | internal/repository/cache-repository.go:54-64 | loading keeps the invariant and caches no key that was neither cached before nor loaded |
| Lru.FillAppends | internal/repository/cache-repository.go:54-64 | loading distinct new keys into a cache with room appends the first `min(n, room)` of them in load order, then stops |
| Lru.FillStores | internal/repository/cache-repository.go:54-64 | that load keeps every previously cached entry and stores each loaded key that fits with its own value |
| Lru.HitSurvivesNextEviction | internal/repository/cache-repository.go:88-114 | in a full cache of capacity at least 2, a key that was just read survives the next insertion of a new key; the oldest other key is evicted |
| CacheRepository.New | internal/repository/cache-repository.go:38-44 | the repository starts empty and is bounded by `maxCacheSize` |
| CacheRepository.Save | internal/repository/cache-repository.go:70-98 | a done context gives the wrapped "save error" and no change; otherwise the order is stored under its id, the bound holds, and no other order changes |
| CacheRepository.GetByID | internal/repository/cache-repository.go:101-116 | a done context gives the wrapped "getByID error"; a missing id gives not-found with no change; a hit returns the stored order and moves only its id to most recently used, the other ids keeping their order |
| CacheRepository.GetAll | internal/repository/cache-repository.go:119-142 | a done context gives the wrapped "getAll error"; otherwise every cached order is returned exactly once, as many as `Size` reports; an error always matches the context's error under `errors.Is` |
| CacheRepository.LoadOrders | internal/repository/cache-repository.go:54-64 | the loading loop keeps the cache valid and within capacity |
| CacheRepository.LoadFromDB | internal/repository/cache-repository.go:47-67 | a failed store listing gives the wrapped "load from db error" and no change; otherwise success, and only cached or fetched ids are cached |
| CacheRepository.LoadOrdersIsFill | internal/repository/cache-repository.go:54-64 | the loop that saves each order and stops once full equals the LRU fill keyed by order id |
| CacheRepository.EndedContextErrors | internal/repository/cache-repository.go:70-116 | with an ended context `Save` and `GetByID` fail with an error that `errors.Is` matches against `context.Canceled` or `context.DeadlineExceeded`, whichever ended it; a missing id is not reported as either |
| CacheRepository.SaveThenGet | internal/repository/cache-repository.go:70-116 | a read after a successful save of an order returns that order |
| CacheRepository.SaveOverwrites | internal/repository/cache-repository.go:78-81 | saving twice under one id keeps the second order, and the size is that of one save |
| CacheRepository.LoadFillsInOrder | internal/repository/cache-repository.go:47-67 | loading orders with distinct new ids appends their ids in load order, up to the room left |
| CacheRepository.LoadKeepsAndStores | internal/repository/cache-repository.go:47-67 | loading keeps what was cached and stores each order that fits under its id |
| CacheRepository.LoadFromEmpty | internal/repository/cache-repository.go:14-67 | loading distinct orders into a new repository caches exactly the first `min(n, 1000)` of them, in order |
| DurableStore.Save | internal/repository/db-repository.go:30-56 | a failed transaction writes nothing and returns its error; otherwise the order's row is upserted and no other row changes |
| DurableStore.GetByID | internal/repository/db-repository.go:60-81 | the stored order for the id, or not-found, or the read error, or Go's `(nil, nil)` |
| DurableStore.GetAll | internal/repository/db-repository.go:83-115 | the listing holds every stored order exactly once, or it is the error |
| OrderService.SaveOrder | internal/service/service.go:33-41 | the store is written first; a store error is returned with the cache untouched; after a store success the cache is written, and its error is returned although the order is durable |
| OrderService.GetOrderByID | internal/service/service.go:44-59 | a hit is served without a store read; a miss returns the store's answer unchanged and caches a found order; the store is never written |
| OrderService.GetKeepsCoherence | internal/service/service.go:44-59 | reads keep every cached order equal to the store's row |
| OrderService.SaveKeepsCoherence | internal/service/service.go:33-41 | a save whose store step fails, or whose context is live, keeps the cache coherent with the store |
| OrderService.LateCancelLeavesStaleEntry | internal/service/service.go:33-59 | a context that ends between the two writes leaves the old order cached, and later reads return it |
| OrderService.MissThenHit | internal/service/service.go:44-59 | a miss served by the store makes the next live read of that id a hit with no store read |
| OrderService.SaveThenRead | internal/service/service.go:33-59 | after a successful save, reading the id is a hit that returns the saved order |
| LegacyCache.Index | internal/orders/cache-repository.go:22-24 | the fill loop caches exactly the listed ids, each with the last order listed under it |
| LegacyCache.IndexKeyedByUid | internal/orders/cache-repository.go:22-24 | every order is cached under its own id |
| LegacyCache.New | internal/orders/cache-repository.go:15-30 | a failed listing gives an empty cache; otherwise the index of the listing |
| LegacyCache.Save | internal/orders/cache-repository.go:33-38 | never fails; stores the order under its id and changes no other entry |
| LegacyCache.GetByID | internal/orders/cache-repository.go:41-49 | the cached order, or not-found exactly when the id is absent |
| LegacyCache.GetAll | internal/orders/cache-repository.go:51-60 | never fails; every cached order exactly once |
| LegacyCache.IndexOfListing | internal/orders/cache-repository.go:15-30 | the cache built from the store's full listing equals the store's rows |
| LegacyService.SaveOrder | internal/orders/service.go:17-25 | writes the store only, returns its error unchanged, and never touches the cache |
| LegacyService.GetOrderByID | internal/orders/service.go:28-40 | cache-aside read: a hit without a store read; on a miss the store's answer, a found order being cached |
| LegacyService.GetAllOrders | internal/orders/service.go:43-45 | the store's listing, or its error, passed through |
| LegacyService.SaveLeavesCacheStale | internal/orders/service.go:17-40 | after a save of a new version of a cached order, reads keep returning the old version |
| LegacyService.WarmCacheServesStore | internal/orders/service.go:28-40 | a cache built from the full listing serves every stored order without a store read |
| Brokers.TrimStart | producer/main.go:151-153 | the length of the leading white space: every character before it is space, the next is not |
| Brokers.TrimEnd | producer/main.go:154-156 | where trailing white space begins, never before the start |
| Brokers.TrimSpace | producer/main.go:148-158 | the result is a contiguous slice of the input with only white space outside it and none at either of its ends, and it is empty exactly when the input is all white space |
| Brokers.TrimmedIsFixed | producer/main.go:148-158 | a string without white space at its ends is unchanged by trimming |
| Brokers.TrimSpaceIdempotent | producer/main.go:148-158 | trimming twice is trimming once |
| Brokers.TrimSpaceScan | producer/main.go:148-158 | the two index loops compute exactly `TrimSpace` |
| Brokers.Segments | producer/main.go:132-147 | at least one piece, none of them holding a comma |
| Brokers.SegmentsCount | producer/main.go:132-147 | there is one more piece than there are commas in the input |
| Brokers.JoinSegments | producer/main.go:132-147 | joining the pieces with commas gives back the input |
| Brokers.SegmentsJoin | producer/main.go:132-147 | cutting comma-free pieces joined with commas gives back the pieces |
| Brokers.KafkaSplit | producer/main.go:132-147 | every piece is comma-free and trimmed |
| Brokers.KafkaSplitCount | producer/main.go:132-147 | one piece per comma, plus one more only when the untrimmed last segment is non-empty |
| Brokers.KafkaSplitScan | producer/main.go:132-147 | the character loop equals the pieces, trimmed, with the last piece dropped only when it is empty before trimming |
| Brokers.SplitAndTrim | producer/main.go:124-130 | a copy of the `kafkaSplit` result |
| Brokers.NonEmpty | producer/main.go:29-33 | keeps every non-empty piece as many times as it occurs, and no empty piece |
| Brokers.NonEmptyConcat | producer/main.go:29-33 | the filter keeps the order: filtering a concatenation is concatenating the filtered parts |
| Brokers.NonEmptyIsEmpty | producer/main.go:28-36 | nothing survives the filter exactly when every piece is empty |
| Brokers.BrokerList | producer/main.go:28-36 | "no brokers provided" exactly when every piece is empty; otherwise the non-empty pieces, each comma-free and trimmed |
| Brokers.KafkaSplitPair | producer/main.go:132-147 | two comma-free pieces around one comma give both pieces trimmed, the second only when it is non-empty before trimming |
| Brokers.SplitDropsEmptyLastPiece | producer/main.go:143-145 | `""` gives no piece, `"a,"` gives `["a"]`, and `","` gives one empty piece |
| Brokers.SplitKeepsBlankLastPiece | producer/main.go:143-145 | `"a, "` gives `["a", ""]`: a blank last piece is kept and trims to empty |
| Brokers.SplitTrimsPieces | producer/main.go:132-158 | `" a , b "` gives `["a", "b"]` |
| Validation.ItemErrors | internal/model/order.go:53-63 | the item report is empty exactly when every tagged item rule holds |
| Validation.ItemsErrors | internal/model/order.go:20 | `dive` reports nothing exactly when every item is valid, and reports a zero `ChrtID` wherever it occurs |
| Validation.DeliveryErrors | internal/model/order.go:26-32 | the delivery report is empty exactly when every required field is set and the e-mail is well formed |
| Validation.PaymentErrors | internal/model/order.go:38-47 | the payment report is empty exactly when the required fields are set and the amounts are non-negative |
| Validation.HeaderErrors | internal/model/order.go:6-16 | the order's own fields report nothing exactly when id, customer and shard are set, `SmID >= 0`, and `DateCreated` is not the zero `time.Time` as the validator's zero test `isZeroTime` decides |
| Validation.ItemsFieldErrors | internal/model/order.go:20 | `Items` reports nothing exactly when it is non-nil, non-empty and every item is valid |
| Validation.OrderErrors | internal/model/order.go:5-21 | the validator returns no error exactly when every tag of the aggregate holds |
| Validation.OrderFieldViolations | internal/model/order.go:6-20 | each failing order-level rule is reported against its own field and tag, with nil and empty `Items` told apart |
| Validation.DiveReportsBadItem | internal/model/order.go:20 | one item with `ChrtID == 0` invalidates the order and is reported as `required` on `ChrtID` |
| Validation.ItemFieldViolations | internal/model/order.go:53-58 | `ChrtID == 0` fails `required` and not `gte`; a negative `ChrtID`, an empty track number and a sale outside 0..100 fail their tags |
| Validation.MinimalItemIsValid | internal/model/order.go:50-64 | an item with only `ChrtID >= 1` and a track number set is valid |
| Validation.UntaggedFieldsIgnored | internal/model/order.go:5-48 | fields tagged `-` or with a lone `omitempty` never change the report |
| Validation.UntaggedItemFieldsIgnored | internal/model/order.go:50-64 | the same for the item's untagged fields |
| Validation.RequiredNestedFields | internal/model/order.go:23-48 | in a valid order every required string of `Delivery` and `Payment` is non-empty |

## Left out

- Mutexes and concurrency: each repository call is one atomic step.
- CacheRepository.GetAll: the context is checked once, on entry. The re-check every 1000 entries inside the loop (lines 133-137) is not modelled, so cancellation during the copy is not modelled either.
- SQL, Kafka, HTTP and the programs under `cmd/`, `internal/api`, `internal/consumer` and `internal/server` are not part of this model. The store is reduced to a map of rows whose failures are fault arguments, independent of the context. The legacy store (`internal/orders/repository.go`) is the same reduction.
- `generateOrder` and the message-producing loop of the producer are not part of this model. Only the broker list that `main` builds is modelled, and `log.Fatal` becomes an `Err` result.
- DurableStore.GetByID: the read-back is taken to be the order as written. In the database the order is rebuilt from its rows, so `DeliveryID`, `PaymentID`, `ItemID` and the sub-records' `OrderUID` come from the database, `DateCreated` comes back rounded to the microsecond (the producer stamps nanoseconds, which the cache keeps), items come back in no fixed order, and an empty `Items` slice comes back nil. `Coherent`, `OrderService.GetKeepsCoherence`, `OrderService.SaveKeepsCoherence` and `OrderService.LateCancelLeavesStaleEntry` therefore mean "equal up to those fields".
- Logging (`logOrder`, `log.Printf`) has no effect on state and is left out.
- Validation.DeliveryErrors: the validator library's e-mail syntax is the parameter `isEmail`, not a definition of the address grammar.
- Validation.HeaderErrors: the validator library's test for the zero `time.Time` is the parameter `isZeroTime`. The library compares the whole struct, location included, so a decoded `0001-01-01T00:00:00+00:00` with a non-nil location can pass `required`; which decoded values count as zero is left to that parameter.
- Both Go caches store and return the `*model.Order` pointer they are given; the model stores and returns order values. No modelled code changes an order after saving it, so no result differs, but a caller that mutated a returned order would change the cached one in Go and not in the model.
- Floating-point fields are `real`. NaN and infinities are not modelled.
- Go strings (bytes) are modelled as sequences of code points. Invalid UTF-8 is not modelled. `kafkaSplit` ranges over runes and `trimSpace` indexes bytes; both readings agree here because the characters compared are single-byte.
- `ModelOrder` of `internal/orders` is taken to be the same aggregate as `model.Order`.
- Integer widths (`int64` ids and amounts) are unbounded; no arithmetic on them happens in the modelled code.

## Where the code and its description differ

- `SaveOrder` of `internal/service` returns the cache's error after the store write has
  succeeded. The order is durable, but the caller sees a failure, and with a context that
  ended in between, the cache keeps the old version (`OrderService.LateCancelLeavesStaleEntry`).
- `GetOrderByID` of `internal/service` treats an ended context like a miss and reads the store
  anyway. The PostgreSQL repository then fails with the context's error, which is returned.
  Only a store that ignores the context, as the model's store does (its faults are arguments
  independent of the context), returns an order, and caching that order then fails silently.
- `SaveOrder` of `internal/orders` does not write the cache, because that write is commented
  out. A cached order therefore stays stale after an update (`LegacyService.SaveLeavesCacheStale`).
- `kafkaSplit` keeps a final piece of blanks as an empty string, so `"a, "` gives
  `["a", ""]`. Only the filter in `main` removes it.

=== FILE: brokers.dfy ===
/** The broker-list parsing of producer/main.go: the `-brokers` flag is split at commas, each
    piece is trimmed of ASCII white space, and empty pieces are dropped before the list is
    handed to the Kafka client.

    Strings are sequences of code points. Go's `kafkaSplit` ranges over runes and `trimSpace`
    indexes bytes, but the characters they compare (`,` and the four white-space characters) are
    single-byte in UTF-8 and never occur inside a multi-byte sequence, so both readings agree.
    The references are `Segments` (split at every comma), `TrimStart`/`TrimEnd` (the white-space
    margins) and `NonEmpty`; the methods follow the Go loops and are proved equal to them.
 */
module Brokers {
  import opened Errors
  import opened Seqs

  /** The characters `trimSpace` removes. */
  predicate IsSpace(c: char)
  {
    c == ' ' || c == '\t' || c == '\n' || c == '\r'
  }

  /** Neither the first nor the last character is white space. */
  predicate Trimmed(s: string)
  {
    s == [] || (!IsSpace(s[0]) && !IsSpace(s[|s| - 1]))
  }

  // ---------------------------------------------------------------------------
  // trimSpace
  // ---------------------------------------------------------------------------

  /** The length of the leading white space. */
  function TrimStart(s: string): (i: nat)
    ensures i <= |s|
    ensures forall j | 0 <= j < i :: IsSpace(s[j])
    ensures i == |s| || !IsSpace(s[i])
    decreases |s|
  {
    if s != [] && IsSpace(s[0]) then
      var i := 1 + TrimStart(s[1..]);
      assert forall j | 1 <= j < i :: s[j] == s[1..][j - 1];
      i
    else 0
  }

  /** Where the trailing white space of `s[start..]` begins. */
  function TrimEnd(s: string, start: nat): (e: nat)
    requires start <= |s|
    ensures start <= e <= |s|
    ensures forall j | e <= j < |s| :: IsSpace(s[j])
    ensures e == start || !IsSpace(s[e - 1])
    decreases |s|
  {
    if |s| > start && IsSpace(s[|s| - 1]) then
      var e := TrimEnd(s[..|s| - 1], start);
      assert forall j | e <= j < |s| - 1 :: s[j] == s[..|s| - 1][j];
      e
    else |s|
  }

  /** `trimSpace`: `s` without its leading and trailing white space. The result is a
      contiguous slice of `s` with only white space outside it and none at either of its
      ends, and it is empty exactly when `s` is all white space. */
  function TrimSpace(s: string): (r: string)
    ensures Trimmed(r)
    ensures |r| <= |s|
    ensures forall c | c in r :: c in s
    ensures r == [] <==> forall j | 0 <= j < |s| :: IsSpace(s[j])
    ensures exists i, e | 0 <= i <= e <= |s| ::
              && r == s[i..e]
              && (forall j | 0 <= j < i :: IsSpace(s[j]))
              && (forall j | e <= j < |s| :: IsSpace(s[j]))
  {
    var start := TrimStart(s);
    var end := TrimEnd(s, start);
    assert start < end ==> !IsSpace(s[start]);
    s[start..end]
  }

  /** A string with no white space at either end is its own trimming. */
  lemma TrimmedIsFixed(s: string)
    requires Trimmed(s)
    ensures TrimSpace(s) == s
  {
    if s != [] {
      assert TrimStart(s) == 0;
      assert TrimEnd(s, 0) == |s|;
    }
  }

  /** Trimming twice is trimming once. */
  lemma TrimSpaceIdempotent(s: string)
    ensures TrimSpace(TrimSpace(s)) == TrimSpace(s)
  {
    TrimmedIsFixed(TrimSpace(s));
  }

  /** The two loops of `trimSpace`: advance `start` over leading white space, then pull
      `end` back over trailing white space, never past `start`. */
  method TrimSpaceScan(s: string) returns (r: string)
    ensures r == TrimSpace(s)
  {
    var start, end := 0, |s|;
    while start < end && IsSpace(s[start])
      invariant start <= end == |s|
      invariant forall j | 0 <= j < start :: IsSpace(s[j])
    {
      start := start + 1;
    }
    assert start == TrimStart(s);
    while end > start && IsSpace(s[end - 1])
      invariant start <= end <= |s|
      invariant forall j | end <= j < |s| :: IsSpace(s[j])
    {
      end := end - 1;
    }
    assert end == TrimEnd(s, start);
    r := s[start..end];
  }

  // ---------------------------------------------------------------------------
  // kafkaSplit
  // ---------------------------------------------------------------------------

  /** `s` cut at every comma: one more piece than there are commas, none holding a comma. */
  function Segments(s: string): (r: seq<string>)
    ensures |r| >= 1
    ensures forall i | 0 <= i < |r| :: ',' !in r[i]
    decreases |s|
  {
    if s == [] then [[]]
    else
      var init := Segments(s[..|s| - 1]);
      var c := s[|s| - 1];
      if c == ',' then init + [[]]
      else init[..|init| - 1] + [init[|init| - 1] + [c]]
  }

  /** The pieces written back with a comma between each two. */
  function Join(ps: seq<string>): string
    requires |ps| >= 1
    decreases |ps|
  {
    if |ps| == 1 then ps[0] else Join(ps[..|ps| - 1]) + [','] + ps[|ps| - 1]
  }

  /** Joining one more piece adds a comma and the piece. */
  lemma JoinSnoc(ps: seq<string>, p: string)
    requires |ps| >= 1
    ensures Join(ps + [p]) == Join(ps) + [','] + p
  {
    SnocParts(ps, p);
  }

  /** Cutting at commas loses nothing: joining the pieces gives back the input. */
  lemma {:induction false} JoinSegments(s: string)
    ensures Join(Segments(s)) == s
    decreases |s|
  {
    if s != [] {
      var t, c := s[..|s| - 1], s[|s| - 1];
      var init := Segments(t);
      var k := |init|;
      JoinSegments(t);
      LastSplit(s);
      SegmentsSnoc(t, c);
      if c == ',' {
        JoinSnoc(init, []);
      } else if k == 1 {
        assert Segments(s) == [init[0] + [c]];
      } else {
        var front := init[..k - 1];
        LastSplit(init);
        JoinSnoc(front, init[k - 1] + [c]);
        JoinSnoc(front, init[k - 1]);
        AppendAssoc(Join(front) + [','], init[k - 1], [c]);
      }
    }
  }

  /** There is one more piece than there are commas. */
  lemma {:induction false} SegmentsCount(s: string)
    ensures |Segments(s)| == multiset(s)[','] + 1
    decreases |s|
  {
    if s != [] {
      var t, c := s[..|s| - 1], s[|s| - 1];
      SegmentsCount(t);
      LastSplit(s);
      SegmentsSnoc(t, c);
    }
  }

  /** One more character: a comma opens a new piece, anything else extends the last one. */
  lemma SegmentsSnoc(t: string, c: char)
    ensures var segs := Segments(t);
            Segments(t + [c]) == if c == ',' then segs + [[]]
                                 else segs[..|segs| - 1] + [segs[|segs| - 1] + [c]]
  {
    assert (t + [c])[..|t|] == t;
  }

  /** Appending comma-free text extends the last piece only. */
  lemma {:induction false} SegmentsExtend(t: string, u: string)
    requires ',' !in u
    ensures var segs := Segments(t);
            Segments(t + u) == segs[..|segs| - 1] + [segs[|segs| - 1] + u]
    decreases |u|
  {
    var segs := Segments(t);
    var k := |segs|;
    if u == [] {
      LastSplit(segs);
      assert t + u == t && segs[k - 1] + u == segs[k - 1];
    } else {
      var v, c := u[..|u| - 1], u[|u| - 1];
      assert u == v + [c] && ',' !in v by {
        LastSplit(u);
      }
      var mid := Segments(t + v);
      assert mid == segs[..k - 1] + [segs[k - 1] + v] by {
        SegmentsExtend(t, v);
      }
      assert t + u == (t + v) + [c] by {
        AppendAssoc(t, v, [c]);
      }
      assert Segments(t + u) == mid[..|mid| - 1] + [mid[|mid| - 1] + [c]] by {
        SegmentsSnoc(t + v, c);
      }
      ExtendLast(segs[..k - 1], segs[k - 1], v, c);
    }
  }

  /** Cutting the joined pieces gives back the pieces, provided none holds a comma. */
  lemma {:induction false} SegmentsJoin(ps: seq<string>)
    requires |ps| >= 1 && forall i | 0 <= i < |ps| :: ',' !in ps[i]
    ensures Segments(Join(ps)) == ps
    decreases |ps|
  {
    if |ps| == 1 {
      SegmentsExtend([], ps[0]);
      assert [] + ps[0] == ps[0];
    } else {
      var init := ps[..|ps| - 1];
      var last := ps[|ps| - 1];
      var t := Join(init) + [','];
      assert Segments(t) == init + [[]] by {
        SegmentsJoin(init);
        SegmentsSnoc(Join(init), ',');
      }
      assert Join(ps) == t + last by {
        LastSplit(ps);
        JoinSnoc(init, last);
      }
      SegmentsExtend(t, last);
      SnocParts(init, []);
      assert [] + last == last;
      LastSplit(ps);
    }
  }

  /** Each piece trimmed. */
  function TrimAll(ps: seq<string>): (r: seq<string>)
    ensures |r| == |ps|
    ensures forall i | 0 <= i < |ps| :: r[i] == TrimSpace(ps[i])
  {
    seq(|ps|, i requires 0 <= i < |ps| => TrimSpace(ps[i]))
  }

  /** `kafkaSplit`: the comma-separated pieces, each trimmed. A final piece is kept only when
      it is non-empty before trimming, so a trailing comma adds nothing while a trailing
      comma followed by blanks adds an empty piece. */
  function KafkaSplit(s: string): (r: seq<string>)
    ensures forall i | 0 <= i < |r| :: ',' !in r[i] && Trimmed(r[i])
  {
    var segs := Segments(s);
    if segs[|segs| - 1] == [] then TrimAll(segs[..|segs| - 1]) else TrimAll(segs)
  }

  /** One piece per comma, plus one more only when the untrimmed last segment is non-empty. */
  lemma KafkaSplitCount(s: string)
    ensures var segs := Segments(s);
            |KafkaSplit(s)| == multiset(s)[','] + (if segs[|segs| - 1] == [] then 0 else 1)
  {
    SegmentsCount(s);
  }

  /** Trimming a list with one more piece. */
  lemma TrimAllSnoc(ps: seq<string>, p: string)
    ensures TrimAll(ps + [p]) == TrimAll(ps) + [TrimSpace(p)]
  {
  }

  /** A comma closes the open piece: it joins the finished pieces and a new empty piece opens. */
  lemma ScanComma(t: string)
    ensures var segs := Segments(t);
            var next := Segments(t + [',']);
            && next[|next| - 1] == []
            && TrimAll(next[..|next| - 1]) == TrimAll(segs[..|segs| - 1]) + [TrimSpace(segs[|segs| - 1])]
  {
    var segs := Segments(t);
    SegmentsSnoc(t, ',');
    assert (segs + [[]])[..|segs|] == segs;
    assert segs == segs[..|segs| - 1] + [segs[|segs| - 1]];
    TrimAllSnoc(segs[..|segs| - 1], segs[|segs| - 1]);
  }

  /** Any other character extends the open piece and leaves the finished ones alone. */
  lemma ScanOther(t: string, c: char)
    requires c != ','
    ensures var segs := Segments(t);
            var next := Segments(t + [c]);
            && next[|next| - 1] == segs[|segs| - 1] + [c]
            && next[..|next| - 1] == segs[..|segs| - 1]
  {
    var segs := Segments(t);
    SegmentsSnoc(t, c);
    var next := segs[..|segs| - 1] + [segs[|segs| - 1] + [c]];
    assert next[..|segs| - 1] == segs[..|segs| - 1];
  }

  /** The character loop of `kafkaSplit`: `cur` collects the current piece, a comma flushes
      it trimmed, and after the loop a non-empty `cur` is flushed too. */
  method KafkaSplitScan(s: string) returns (res: seq<string>)
    ensures res == KafkaSplit(s)
  {
    res := [];
    var cur: string := [];
    for i := 0 to |s|
      invariant var segs := Segments(s[..i]);
                cur == segs[|segs| - 1] && res == TrimAll(segs[..|segs| - 1])
    {
      TakeSnoc(s, i);
      if s[i] == ',' {
        ScanComma(s[..i]);
        res := res + [TrimSpace(cur)];
        cur := [];
      } else {
        ScanOther(s[..i], s[i]);
        cur := cur + [s[i]];
      }
    }
    TakeAll(s);
    if cur != [] {
      var segs := Segments(s);
      LastSplit(segs);
      TrimAllSnoc(segs[..|segs| - 1], cur);
      res := res + [TrimSpace(cur)];
    }
  }

  /** `splitAndTrim`: a copy of the `kafkaSplit` pieces. */
  method SplitAndTrim(s: string) returns (out: seq<string>)
    ensures out == KafkaSplit(s)
  {
    var parts := KafkaSplitScan(s);
    out := [];
    for i := 0 to |parts|
      invariant out == parts[..i]
    {
      TakeSnoc(parts, i);
      out := out + [parts[i]];
    }
    TakeAll(parts);
  }

  // ---------------------------------------------------------------------------
  // The broker list of `main`
  // ---------------------------------------------------------------------------

  /** The non-empty pieces, in their order. */
  function NonEmpty(ps: seq<string>): (r: seq<string>)
    ensures |r| <= |ps|
    ensures forall p | p in r :: p != [] && p in ps
    ensures forall p | p in ps && p != [] :: p in r
    ensures forall p | p != [] :: multiset(r)[p] == multiset(ps)[p]
    decreases |ps|
  {
    if ps == [] then []
    else
      var init := ps[..|ps| - 1];
      var last := ps[|ps| - 1];
      var r := NonEmpty(init);
      assert ps == init + [last];
      assert forall p | p in init :: p in ps;
      assert forall p | p in ps :: p in init || p == last;
      if last != [] then r + [last] else r
  }

  lemma NonEmptySnoc(ps: seq<string>, p: string)
    ensures NonEmpty(ps + [p]) == if p != [] then NonEmpty(ps) + [p] else NonEmpty(ps)
  {
    assert (ps + [p])[..|ps|] == ps;
  }

  /** The filter keeps the order: filtering two lists one after the other is filtering
      their concatenation. */
  lemma {:induction false} NonEmptyConcat(a: seq<string>, b: seq<string>)
    ensures NonEmpty(a + b) == NonEmpty(a) + NonEmpty(b)
    decreases |b|
  {
    if b == [] {
      assert a + b == a;
    } else {
      var front, x := b[..|b| - 1], b[|b| - 1];
      assert a + b == (a + front) + [x] by {
        LastSplit(b);
        AppendAssoc(a, front, [x]);
      }
      NonEmptyConcat(a, front);
      NonEmptySnoc(a + front, x);
      LastSplit(b);
      NonEmptySnoc(front, x);
      AppendAssoc(NonEmpty(a), NonEmpty(front), [x]);
    }
  }

  /** Nothing survives the filter exactly when every piece is empty. */
  lemma NonEmptyIsEmpty(ps: seq<string>)
    ensures NonEmpty(ps) == [] <==> forall p | p in ps :: p == []
  {
    var r := NonEmpty(ps);
    if r != [] {
      assert r[0] in r;
    }
  }

  /** The broker list `main` builds from the `-brokers` flag: the non-empty trimmed pieces,
      or the fatal "no brokers provided" when there are none. Every broker is non-empty,
      comma-free and trimmed. */
  method BrokerList(flag: string) returns (r: Result<seq<string>>)
    ensures r.Err? <==> forall p | p in KafkaSplit(flag) :: p == []
    ensures r.Err? ==> r.error == Fault("no brokers provided")
    ensures r.Ok? ==> r.value == NonEmpty(KafkaSplit(flag)) && r.value != []
    ensures r.Ok? ==> forall b | b in r.value :: b != [] && ',' !in b && Trimmed(b)
  {
    var parts := SplitAndTrim(flag);
    var list: seq<string> := [];
    for i := 0 to |parts|
      invariant list == NonEmpty(parts[..i])
    {
      TakeSnoc(parts, i);
      NonEmptySnoc(parts[..i], parts[i]);
      if parts[i] != [] {
        list := list + [parts[i]];
      }
    }
    TakeAll(parts);
    NonEmptyIsEmpty(parts);
    if list == [] {
      return Err(Fault("no brokers provided"));
    }
    r := Ok(list);
  }

  /** Two comma-free pieces around one comma: the second is kept only when it is
      non-empty before trimming. */
  lemma KafkaSplitPair(p: string, q: string)
    requires ',' !in p && ',' !in q
    ensures KafkaSplit(p + [','] + q)
            == if q == [] then [TrimSpace(p)] else [TrimSpace(p), TrimSpace(q)]
  {
    var segs := Segments(p + [','] + q);
    assert segs == [p, q] by {
      SegmentsJoin([p, q]);
      assert Join([p, q]) == Join([p]) + [','] + q;
    }
    assert segs[..1] == [p];
  }

  /** A final piece that is empty before trimming is dropped: a trailing comma adds nothing,
      and a lone comma gives one empty piece. */
  lemma SplitDropsEmptyLastPiece()
    ensures KafkaSplit("") == []
    ensures KafkaSplit("a,") == ["a"]
    ensures KafkaSplit(",") == [""]
  {
    assert "a," == "a" + [','] + "";
    KafkaSplitPair("a", "");
    TrimmedIsFixed("a");
    assert "," == "" + [','] + "";
    KafkaSplitPair("", "");
    TrimmedIsFixed("");
  }

  /** A final piece of blanks is kept, and trims to the empty string. */
  lemma SplitKeepsBlankLastPiece()
    ensures KafkaSplit("a, ") == ["a", ""]
  {
    assert "a, " == "a" + [','] + " ";
    KafkaSplitPair("a", " ");
    TrimmedIsFixed("a");
    assert TrimSpace(" ") == "";
  }

  /** Blanks around each piece are removed. */
  lemma SplitTrimsPieces()
    ensures KafkaSplit(" a , b ") == ["a", "b"]
  {
    assert " a , b " == " a " + [','] + " b ";
    KafkaSplitPair(" a ", " b ");
    TrimsToOneChar('a');
    TrimsToOneChar('b');
  }

  lemma TrimsToOneChar(c: char)
    requires !IsSpace(c)
    ensures TrimSpace([' ', c, ' ']) == [c]
  {
    var s := [' ', c, ' '];
    assert TrimStart(s[1..]) == 0;
    assert TrimStart(s) == 1;
    assert s[..2][..1] == [' '];
    assert TrimEnd(s, 1) == 2;
  }
}

=== FILE: cache_repository.dfy ===
/** The bounded order cache of internal/repository/cache-repository.go: the `Lru` structure
    holding orders under their ids, behind the repository's context checks and error wrapping.

    Each operation is one atomic step (the mutex is not modelled) and takes the caller's
    context, whose cancellation is checked before anything else.
 */
module CacheRepository {
  import opened Errors
  import opened OrderModel
  import opened Seqs
  import Lru

  /** `maxCacheSize`. */
  const MaxCacheSize: nat := 1000

  type OrderCache = Lru.Cache<Order>

  /** The LRU invariant, and every order stored under its own id. */
  predicate Valid(c: OrderCache)
  {
    Lru.Valid(c) && KeyedByUid(c.entries)
  }

  /** `NewCacheRepository`: an empty cache bounded by `MaxCacheSize`. */
  function New(): (c: OrderCache)
    ensures Valid(c) && c.capacity == MaxCacheSize && Lru.Size(c) == 0
  {
    Lru.Empty(MaxCacheSize)
  }

  /** `Save`: fails with the wrapped context error and no change when the context is done;
      otherwise stores `o` under its id, keeps every other cached order unchanged or evicts
      it, and keeps the bound. Which entry moves or is evicted is stated by `Lru.PutKnownKey`,
      `Lru.PutNewKeyWithRoom` and `Lru.PutNewKeyWhenFull`. */
  function Save(c: OrderCache, ctx: Context, o: Order): (r: (OrderCache, Status))
    requires Valid(c)
    ensures Valid(r.0) && r.0.capacity == c.capacity
    ensures !ctx.Live? ==> r == (c, Failed(Wrapped("save error", ctx.Err().value)))
    ensures ctx.Live? ==> r.1 == Done && o.orderUid in r.0.entries && r.0.entries[o.orderUid] == o
    ensures forall k | k in r.0.entries && k != o.orderUid :: k in c.entries && r.0.entries[k] == c.entries[k]
  {
    match ctx.Err()
    case Some(e) => (c, Failed(Wrapped("save error", e)))
    case None => (Lru.Put(c, o.orderUid, o), Done)
  }

  /** `GetByID`: fails with the wrapped context error when the context is done, and with
      not-found when the id is absent, changing nothing in both cases; on a hit returns the
      stored order, whose id is `id`, and moves `id` alone to most recently used: the other
      ids keep their order. */
  function GetByID(c: OrderCache, ctx: Context, id: string): (r: (OrderCache, Result<Order>))
    requires Valid(c)
    ensures Valid(r.0) && r.0.capacity == c.capacity && r.0.entries == c.entries
    ensures Lru.Size(r.0) == Lru.Size(c)
    ensures !ctx.Live? ==> r == (c, Err(Wrapped("getByID error", ctx.Err().value)))
    ensures ctx.Live? && id !in c.entries ==> r == (c, Err(NotFound))
    ensures ctx.Live? && id in c.entries ==>
              && r.1 == Ok(c.entries[id])
              && r.1.value.orderUid == id
              && r.0.recency[|r.0.recency| - 1] == id
              && r.0.recency == Seqs.Without(c.recency, id) + [id]
  {
    match ctx.Err()
    case Some(e) => (c, Err(Wrapped("getByID error", e)))
    case None =>
      if id !in c.entries then (c, Err(NotFound))
      else (Lru.Promote(c, id), Ok(c.entries[id]))
  }

  /** `GetAll`: fails with the wrapped context error when the context is done; otherwise
      returns every cached order exactly once, in no particular order. */
  method GetAll(c: OrderCache, ctx: Context) returns (r: Result<seq<Order>>)
    requires Valid(c)
    ensures !ctx.Live? ==> r == Err(Wrapped("getAll error", ctx.Err().value))
    ensures r.Err? ==> !ctx.Live? && Is(r.error, ctx.Err().value)
    ensures ctx.Live? ==> r.Ok? && Lists(r.value, c.entries) && |r.value| == Lru.Size(c)
  {
    if !ctx.Live? {
      return Err(Wrapped("getAll error", ctx.Err().value));
    }
    var vals;
    ghost var keys;
    vals, keys := Snapshot(c.entries);
    ListsSnapshot(vals, keys, c.entries);
    Lru.SizeCountsEntries(c);
    r := Ok(vals);
  }

  /** The loop of `LoadFromDB`: save each order under a background context, and stop as soon
      as the size reaches the capacity. */
  function LoadOrders(c: OrderCache, os: seq<Order>): (r: OrderCache)
    requires Valid(c)
    ensures Valid(r) && r.capacity == c.capacity
    decreases |os|
  {
    if os == [] then c
    else
      var next := Save(c, Live, os[0]).0;
      if Lru.Size(next) >= c.capacity then next
      else LoadOrders(next, os[1..])
  }

  /** `LoadFromDB`: when the store's `GetAll` failed, returns the wrapped error and adds
      nothing; otherwise fills the cache from the fetched orders, never beyond capacity, and
      caches nothing that was neither cached before nor fetched. */
  function LoadFromDB(c: OrderCache, fetched: Result<seq<Order>>): (r: (OrderCache, Status))
    requires Valid(c)
    ensures Valid(r.0) && r.0.capacity == c.capacity
    ensures fetched.Err? ==> r == (c, Failed(Wrapped("load from db error", fetched.error)))
    ensures fetched.Ok? ==> r.1 == Done
    ensures fetched.Ok? ==> forall k | k in r.0.entries :: k in c.entries || k in Uids(fetched.value)
  {
    match fetched
    case Err(e) => (c, Failed(Wrapped("load from db error", e)))
    case Ok(os) =>
      LoadOrdersIsFill(c, os);
      (LoadOrders(c, os), Done)
  }

  // ---------------------------------------------------------------------------
  // Properties relating several operations
  // ---------------------------------------------------------------------------

  /** The loading loop is the LRU fill with each order keyed by its id. */
  lemma {:induction false} LoadOrdersIsFill(c: OrderCache, os: seq<Order>)
    requires Valid(c)
    ensures LoadOrders(c, os) == Lru.Fill(c, Uids(os), os)
    decreases |os|
  {
    if os != [] {
      var next := Save(c, Live, os[0]).0;
      if Lru.Size(next) < c.capacity {
        LoadOrdersIsFill(next, os[1..]);
        UidsTail(os);
      }
    }
  }

  /** A call made with an ended context fails with an error that `errors.Is` matches
      against the context's cancellation or deadline error; a missing id is not reported
      as one. */
  lemma EndedContextErrors(c: OrderCache, ctx: Context, o: Order, id: string)
    requires Valid(c)
    ensures !ctx.Live? ==> Save(c, ctx, o).1.Failed? && GetByID(c, ctx, id).1.Err?
    ensures ctx.Cancelled? ==>
              Is(Save(c, ctx, o).1.error, Canceled) && Is(GetByID(c, ctx, id).1.error, Canceled)
    ensures ctx.Expired? ==>
              && Is(Save(c, ctx, o).1.error, DeadlineExceeded)
              && Is(GetByID(c, ctx, id).1.error, DeadlineExceeded)
    ensures ctx.Live? && id !in c.entries ==>
              !Is(GetByID(c, ctx, id).1.error, Canceled) && !Is(GetByID(c, ctx, id).1.error, DeadlineExceeded)
  {
  }

  /** Round trip: after a successful `Save(o)`, `GetByID(o.OrderUID)` returns `o`. */
  lemma SaveThenGet(c: OrderCache, o: Order)
    requires Valid(c)
    ensures var c' := Save(c, Live, o).0;
            GetByID(c', Live, o.orderUid).1 == Ok(o)
  {
  }

  /** Saving twice under one id keeps only the second order, and the size is that of a
      single save. */
  lemma SaveOverwrites(c: OrderCache, first: Order, second: Order)
    requires Valid(c) && first.orderUid == second.orderUid
    ensures var c1 := Save(c, Live, first).0;
            var c2 := Save(c1, Live, second).0;
            && GetByID(c2, Live, second.orderUid).1 == Ok(second)
            && Lru.Size(c2) == Lru.Size(c1)
  {
    Lru.PutKnownKey(Save(c, Live, first).0, second.orderUid, second);
  }

  /** Loading orders with distinct new ids into a cache with room appends the ids of the
      first ones that fit, in load order, behind what was cached before. */
  lemma LoadFillsInOrder(c: OrderCache, os: seq<Order>)
    requires Valid(c) && Lru.Size(c) < c.capacity
    requires Distinct(Uids(os)) && forall i | 0 <= i < |os| :: os[i].orderUid !in c.entries
    ensures var n := if |os| < c.capacity - Lru.Size(c) then |os| else c.capacity - Lru.Size(c);
            LoadFromDB(c, Ok(os)).0.recency == c.recency + Uids(os[..n])
  {
    var n := if |os| < c.capacity - Lru.Size(c) then |os| else c.capacity - Lru.Size(c);
    LoadOrdersIsFill(c, os);
    Lru.FillAppends(c, Uids(os), os);
    assert Lru.Room(c, Uids(os)) == n;
    UidsTake(os, n);
  }

  /** Loading orders with distinct new ids into a cache with room keeps what was cached
      before and stores each order that fits under its id. */
  lemma LoadKeepsAndStores(c: OrderCache, os: seq<Order>)
    requires Valid(c) && Lru.Size(c) < c.capacity
    requires Distinct(Uids(os)) && forall i | 0 <= i < |os| :: os[i].orderUid !in c.entries
    ensures var n := if |os| < c.capacity - Lru.Size(c) then |os| else c.capacity - Lru.Size(c);
            var r := LoadFromDB(c, Ok(os)).0;
            && (forall k | k in c.entries :: k in r.entries && r.entries[k] == c.entries[k])
            && (forall i | 0 <= i < n :: os[i].orderUid in r.entries && r.entries[os[i].orderUid] == os[i])
  {
    LoadOrdersIsFill(c, os);
    Lru.FillStores(c, Uids(os), os);
    assert Lru.Room(c, Uids(os)) == if |os| < c.capacity - Lru.Size(c) then |os| else c.capacity - Lru.Size(c);
  }

  /** Loading into a new cache orders with distinct ids caches exactly the first
      `min(|os|, MaxCacheSize)` of them, the last one loaded being the most recently used. */
  lemma LoadFromEmpty(os: seq<Order>)
    requires Distinct(Uids(os))
    ensures var n := if |os| < MaxCacheSize then |os| else MaxCacheSize;
            var r := LoadFromDB(New(), Ok(os)).0;
            && r.recency == Uids(os[..n])
            && Lru.Size(r) == n
            && (forall i | 0 <= i < n :: os[i].orderUid in r.entries && r.entries[os[i].orderUid] == os[i])
  {
    LoadFillsInOrder(New(), os);
    LoadKeepsAndStores(New(), os);
  }
}

=== FILE: errors.dfy ===
/** Errors, cancellation contexts and result wrappers shared by every component.

    Go's `error` values are modelled as a small closed datatype; `fmt.Errorf("...: %w", err)`
    becomes `Wrapped(msg, err)` and `errors.Is` becomes `Is`, which looks through the
    wrapping chain.
 */
module Errors {

  datatype Option<+T> = None | Some(value: T)

  datatype Error =
    | Canceled                          // context.Canceled
    | DeadlineExceeded                  // context.DeadlineExceeded
    | NotFound                          // "order not found" / no such row
    | Fault(msg: string)                // any other collaborator failure
    | Wrapped(msg: string, cause: Error) // fmt.Errorf("msg:%w", cause)

  /** `errors.Is(e, target)`: `target` occurs somewhere along the wrapping chain of `e`. */
  function Is(e: Error, target: Error): bool
  {
    e == target || (e.Wrapped? && Is(e.cause, target))
  }

  /** A cancellation token, seen through `ctx.Err()`. */
  datatype Context = Live | Cancelled | Expired {
    /** `ctx.Err()`: nothing while the context is live. */
    function Err(): (r: Option<Error>)
      ensures r.None? <==> this.Live?
      ensures this.Cancelled? ==> r == Some(Canceled)
      ensures this.Expired? ==> r == Some(DeadlineExceeded)
    {
      match this
      case Live => None
      case Cancelled => Some(Canceled)
      case Expired => Some(DeadlineExceeded)
    }
  }

  /** A value-or-error pair, Go's `(T, error)`. */
  datatype Result<+T> = Ok(value: T) | Err(error: Error)

  /** Go's bare `error` return: `nil` or an error. */
  datatype Status = Done | Failed(error: Error)
}

=== FILE: legacy.dfy ===
/** The earlier, unbounded cache of internal/orders/cache-repository.go: a plain map from order
    id to order, filled once from the store and never evicted. It takes no context, and its
    `Save` cannot fail. The package's `ModelOrder` is the same aggregate as `OrderModel.Order`.
 */
module LegacyCache {
  import opened Errors
  import opened OrderModel
  import opened Seqs

  datatype Cache = Cache(entries: map<string, Order>)

  predicate Valid(c: Cache)
  {
    KeyedByUid(c.entries)
  }

  /** The loop of `NewCacheRepository`: each order is stored under its id in list order, so
      the cache holds exactly the listed ids, each with the last order listed under it. */
  function Index(os: seq<Order>): (m: map<string, Order>)
    ensures forall k :: k in m <==> k in Uids(os)
    ensures forall k | k in m :: m[k] == os[LastIndex(Uids(os), k)]
    decreases |os|
  {
    if os == [] then map[]
    else
      var init := os[..|os| - 1];
      var last := os[|os| - 1];
      var m := Index(init);
      UidsTake(os, |os| - 1);
      assert Uids(os) == Uids(init) + [last.orderUid];
      m[last.orderUid := last]
  }

  /** Every order the loop stores is stored under its own id. */
  lemma IndexKeyedByUid(os: seq<Order>)
    ensures KeyedByUid(Index(os))
  {
    var m := Index(os);
    forall k | k in m
      ensures m[k].orderUid == k
    {
      assert Uids(os)[LastIndex(Uids(os), k)] == k;
    }
  }

  /** `NewCacheRepository`: when the store's `GetAll` fails the cache starts empty (the error
      is only logged); otherwise it holds the fetched orders, indexed by id. */
  function New(fetched: Result<seq<Order>>): (c: Cache)
    ensures Valid(c)
    ensures fetched.Err? ==> c.entries == map[]
    ensures fetched.Ok? ==> c.entries == Index(fetched.value)
  {
    match fetched
    case Err(_) => Cache(map[])
    case Ok(os) =>
      IndexKeyedByUid(os);
      Cache(Index(os))
  }

  /** `Save`: always succeeds; stores `o` under its id and changes no other entry. */
  function Save(c: Cache, o: Order): (r: (Cache, Status))
    requires Valid(c)
    ensures Valid(r.0) && r.1 == Done
    ensures o.orderUid in r.0.entries && r.0.entries[o.orderUid] == o
    ensures forall k | k != o.orderUid :: (k in r.0.entries <==> k in c.entries)
    ensures forall k | k in c.entries && k != o.orderUid :: r.0.entries[k] == c.entries[k]
  {
    (Cache(c.entries[o.orderUid := o]), Done)
  }

  /** `GetByID`: the cached order, whose id is `id`, or not-found. */
  function GetByID(c: Cache, id: string): (r: Result<Order>)
    requires Valid(c)
    ensures r.Ok? <==> id in c.entries
    ensures r.Ok? ==> r.value == c.entries[id] && r.value.orderUid == id
    ensures r.Err? ==> r.error == NotFound
  {
    if id in c.entries then Ok(c.entries[id]) else Err(NotFound)
  }

  /** `GetAll`: every cached order once, in no particular order; never fails. */
  method GetAll(c: Cache) returns (r: Result<seq<Order>>)
    requires Valid(c)
    ensures r.Ok? && Lists(r.value, c.entries)
  {
    var vals;
    ghost var keys;
    vals, keys := Snapshot(c.entries);
    ListsSnapshot(vals, keys, c.entries);
    r := Ok(vals);
  }

  /** Indexing the store's full listing rebuilds the store's map. */
  lemma IndexOfListing(os: seq<Order>, rows: map<string, Order>)
    requires KeyedByUid(rows) && Lists(os, rows)
    ensures Index(os) == rows
  {
    var m := Index(os);
    var ids := Uids(os);
    forall k | k in rows
      ensures k in m && m[k] == rows[k]
    {
      var i :| 0 <= i < |os| && os[i] == rows[k];
      assert ids[i] == k;
      var last := LastIndex(ids, k);
      assert i <= last && ids[i] == ids[last];
      assert last == i;
    }
    forall k | k in m
      ensures k in rows
    {
      var i := LastIndex(ids, k);
      assert os[i].orderUid == k;
    }
    MapsEqual(rows, m);
  }
}

/** The earlier order service of internal/orders/service.go: writes go to the store only (the
    cache write is commented out in the source), reads are cache-aside over `LegacyCache`, and
    listing reads the store. */
module LegacyService {
  import opened Errors
  import opened OrderModel
  import opened Trace
  import DurableStore
  import LegacyCache

  datatype Service = Service(db: DurableStore.Store, cache: LegacyCache.Cache)

  predicate Valid(s: Service)
  {
    DurableStore.Valid(s.db) && LegacyCache.Valid(s.cache)
  }

  /** `SaveOrder`: writes the store only; its error is returned unchanged and the cache is
      never touched. */
  function SaveOrder(s: Service, o: Order, dbFault: Option<Error>): (r: Outcome<Service, Status>)
    requires Valid(s)
    ensures Valid(r.state) && r.calls == [DbSave] && r.state.cache == s.cache
    ensures dbFault.Some? ==> r.result == Failed(dbFault.value) && r.state == s
    ensures dbFault.None? ==>
              r.result == Done && o.orderUid in r.state.db.rows && r.state.db.rows[o.orderUid] == o
  {
    var (db, status) := DurableStore.Save(s.db, o, dbFault);
    Outcome(Service(db, s.cache), status, [DbSave])
  }

  /** `GetOrderByID`: a cached order is returned without reading the store; otherwise the
      store's answer is returned unchanged and a found order is cached. */
  function GetOrderByID(s: Service, id: string, readFault: DurableStore.ReadFault)
    : (r: Outcome<Service, Result<Option<Order>>>)
    requires Valid(s)
    ensures Valid(r.state) && r.state.db == s.db
    ensures id in s.cache.entries ==>
              r == Outcome(s, Ok(Some(s.cache.entries[id])), [CacheGet])
    ensures id !in s.cache.entries && !(readFault.Served? && id in s.db.rows) ==>
              && r.calls == [CacheGet, DbGet]
              && r.state == s
              && (readFault.Failing? ==> r.result == Err(readFault.error))
              && (readFault.NilOrder? ==> r.result == Ok(None))
              && (readFault.Served? ==> r.result == Err(NotFound))
    ensures id !in s.cache.entries && readFault.Served? && id in s.db.rows ==>
              && r.calls == [CacheGet, DbGet, CacheSave]
              && r.result == Ok(Some(s.db.rows[id]))
              && id in r.state.cache.entries && r.state.cache.entries[id] == s.db.rows[id]
  {
    var cached := LegacyCache.GetByID(s.cache, id);
    if cached.Ok? then
      Outcome(s, Ok(Some(cached.value)), [CacheGet])
    else
      var stored := DurableStore.GetByID(s.db, id, readFault);
      if stored.Ok? && stored.value.Some? then
        var (cache', _) := LegacyCache.Save(s.cache, stored.value.value);
        Outcome(Service(s.db, cache'), stored, [CacheGet, DbGet, CacheSave])
      else
        Outcome(s, stored, [CacheGet, DbGet])
  }

  /** `GetAllOrders`: the store's listing, passed through. */
  method GetAllOrders(s: Service, fault: Option<Error>) returns (r: Result<seq<Order>>)
    requires Valid(s)
    ensures fault.Some? ==> r == Err(fault.value)
    ensures fault.None? ==> r.Ok? && Lists(r.value, s.db.rows)
  {
    r := DurableStore.GetAll(s.db, fault);
  }

  /** Without a cache write on save, a cached order goes stale: after a successful save of a
      new version, reads keep returning the old one and never reach the store. */
  lemma SaveLeavesCacheStale(s: Service, o: Order, fault: DurableStore.ReadFault)
    requires Valid(s) && o.orderUid in s.cache.entries
    ensures var w := SaveOrder(s, o, None);
            var g := GetOrderByID(w.state, o.orderUid, fault);
            && w.state.db.rows[o.orderUid] == o
            && g.calls == [CacheGet]
            && g.result == Ok(Some(s.cache.entries[o.orderUid]))
  {
  }

  /** A cache built from the store's full listing serves every stored order without a store
      read. */
  lemma WarmCacheServesStore(db: DurableStore.Store, os: seq<Order>, id: string, fault: DurableStore.ReadFault)
    requires DurableStore.Valid(db) && Lists(os, db.rows) && id in db.rows
    ensures var s := Service(db, LegacyCache.New(Ok(os)));
            var g := GetOrderByID(s, id, fault);
            && g.calls == [CacheGet]
            && g.result == Ok(Some(db.rows[id]))
  {
    LegacyCache.IndexOfListing(os, db.rows);
  }
}

=== FILE: lru.dfy ===
/** The least-recently-used structure inside internal/repository/cache-repository.go,
    independent of what is cached.

    The Go structure is a map from key to a `container/list` element plus the list of keys;
    here it is a map from key to value plus a sequence of keys, front = least recently used,
    back = most recently used. `Put` is the locked part of `Save` (store, move to back,
    evict from the front while over capacity) and `Promote` the locked part of a `GetByID` hit.
 */
module Lru {
  import opened Seqs

  datatype Cache<V> = Cache(capacity: nat, entries: map<string, V>, recency: seq<string>)

  /** The recency list holds exactly the map's keys, each once, and never more than
      `capacity` of them. */
  predicate Valid<V>(c: Cache<V>)
  {
    && c.capacity >= 1
    && Enumerates(c.recency, c.entries)
    && |c.recency| <= c.capacity
  }

  function Empty<V>(capacity: nat): (c: Cache<V>)
    requires capacity >= 1
    ensures Valid(c) && c.capacity == capacity && Size(c) == 0
  {
    Cache(capacity, map[], [])
  }

  /** `Size`: the length of the recency list. */
  function Size<V>(c: Cache<V>): nat
  {
    |c.recency|
  }

  /** The recency list and the map agree in size, so `Size` counts the cached entries. */
  lemma SizeCountsEntries<V>(c: Cache<V>)
    requires Valid(c)
    ensures Size(c) == |c.entries| <= c.capacity
  {
    DistinctCardinality(c.recency);
    assert (set k | k in c.recency) == c.entries.Keys;
  }

  /** The number of front entries the eviction loop drops. */
  function Overflow<V>(c: Cache<V>): nat
  {
    if |c.recency| > c.capacity then |c.recency| - c.capacity else 0
  }

  /** The eviction loop: while the list is longer than the capacity, remove its front
      element and that key's entry. */
  function EvictOverflow<V>(c: Cache<V>): (r: Cache<V>)
    ensures r.capacity == c.capacity
    ensures r.recency == c.recency[Overflow(c)..]
    ensures forall k | k in r.entries :: k in c.entries && r.entries[k] == c.entries[k]
    ensures forall k | k in c.entries :: k in r.entries <==> k !in c.recency[..Overflow(c)]
    decreases |c.recency|
  {
    if |c.recency| > c.capacity then
      var next := Cache(c.capacity, c.entries - {c.recency[0]}, c.recency[1..]);
      var r := EvictOverflow(next);
      assert c.recency[1..][Overflow(next)..] == c.recency[Overflow(c)..];
      assert c.recency[..Overflow(c)] == [c.recency[0]] + next.recency[..Overflow(next)];
      r
    else
      assert c.recency[..0] == [];
      c
  }

  /** The eviction loop keeps the list and the map in step and restores the bound. */
  lemma EvictKeepsInvariant<V>(t: Cache<V>)
    requires Enumerates(t.recency, t.entries)
    ensures var r := EvictOverflow(t);
            Enumerates(r.recency, r.entries) && |r.recency| <= t.capacity
  {
    DropFront(t.recency, t.entries, Overflow(t), EvictOverflow(t).entries);
  }

  /** Storing `v` under `key` before eviction: the entry is set and the key moved to, or
      appended at, the back. */
  function Touch<V>(c: Cache<V>, key: string, v: V): (t: Cache<V>)
    requires Valid(c)
    ensures t.capacity == c.capacity
    ensures t.entries == c.entries[key := v]
    ensures Enumerates(t.recency, t.entries)
    ensures key in c.entries ==> t.recency == Without(c.recency, key) + [key]
    ensures key !in c.entries ==> t.recency == c.recency + [key]
  {
    if key in c.entries then
      assert Distinct(Without(c.recency, key));
      Cache(c.capacity, c.entries[key := v], Without(c.recency, key) + [key])
    else
      Cache(c.capacity, c.entries[key := v], c.recency + [key])
  }

  /** Store `v` under `key` as the most recently used entry, then evict while over
      capacity. The result keeps the invariant and holds `v` under `key`. */
  function Put<V>(c: Cache<V>, key: string, v: V): (r: Cache<V>)
    requires Valid(c)
    ensures Valid(r) && r.capacity == c.capacity
    ensures key in r.entries && r.entries[key] == v
    ensures forall k | k in r.entries && k != key :: k in c.entries && r.entries[k] == c.entries[k]
  {
    var t := Touch(c, key, v);
    EvictKeepsInvariant(t);
    assert key in t.recency[Overflow(t)..] by {
      assert t.recency[|t.recency| - 1] == key;
    }
    EvictOverflow(t)
  }

  /** `Put` of a known key replaces its value, makes it the most recently used, keeps the
      others' order and values, and evicts nothing. */
  lemma PutKnownKey<V>(c: Cache<V>, key: string, v: V)
    requires Valid(c) && key in c.entries
    ensures var r := Put(c, key, v);
            && r.entries == c.entries[key := v]
            && r.recency == Without(c.recency, key) + [key]
            && Size(r) == Size(c)
  {
    var t := Touch(c, key, v);
    assert |Without(c.recency, key)| == |c.recency| - 1;
    assert Overflow(t) == 0 && t.recency[..0] == [];
  }

  /** `Put` of a new key into a cache with room appends it and evicts nothing. */
  lemma PutNewKeyWithRoom<V>(c: Cache<V>, key: string, v: V)
    requires Valid(c) && key !in c.entries && Size(c) < c.capacity
    ensures var r := Put(c, key, v);
            && r.entries == c.entries[key := v]
            && r.recency == c.recency + [key]
            && Size(r) == Size(c) + 1
  {
    var t := Touch(c, key, v);
    assert Overflow(t) == 0 && t.recency[..0] == [];
  }

  /** `Put` of a new key into a full cache evicts exactly the least recently used entry. */
  lemma PutNewKeyWhenFull<V>(c: Cache<V>, key: string, v: V)
    requires Valid(c) && key !in c.entries && Size(c) == c.capacity
    ensures var r := Put(c, key, v);
            && c.recency[0] !in r.entries
            && r.entries == (c.entries - {c.recency[0]})[key := v]
            && r.recency == c.recency[1..] + [key]
            && Size(r) == c.capacity
  {
    var t := Touch(c, key, v);
    var r := EvictOverflow(t);
    var first := c.recency[0];
    assert first != key;
    assert Overflow(t) == 1 && t.recency[..1] == [first];
    assert r.recency == c.recency[1..] + [key] by {
      assert r.recency == (c.recency + [key])[1..];
    }
    MapsEqual(r.entries, (c.entries - {first})[key := v]);
  }

  /** A hit counts as a use: `key` moves to the back, nothing else changes. */
  function Promote<V>(c: Cache<V>, key: string): (r: Cache<V>)
    requires Valid(c) && key in c.entries
    ensures Valid(r) && r.capacity == c.capacity && r.entries == c.entries
    ensures r.recency[|r.recency| - 1] == key && Size(r) == Size(c)
    ensures forall k | k in c.entries && k != key :: k in r.recency[..|r.recency| - 1]
    ensures r.recency == Without(c.recency, key) + [key]
  {
    var rest := Without(c.recency, key);
    assert Distinct(rest + [key]);
    Cache(c.capacity, c.entries, rest + [key])
  }

  /** The loading loop: put each key with its value, and stop as soon as the size reaches
      the capacity. */
  function Fill<V>(c: Cache<V>, keys: seq<string>, vals: seq<V>): (r: Cache<V>)
    requires Valid(c) && |keys| == |vals|
    ensures Valid(r) && r.capacity == c.capacity
    ensures forall k | k in r.entries :: k in c.entries || k in keys
    decreases |keys|
  {
    if keys == [] then c
    else
      var next := Put(c, keys[0], vals[0]);
      if Size(next) >= c.capacity then next
      else
        var r := Fill(next, keys[1..], vals[1..]);
        assert forall k | k in keys[1..] :: k in keys;
        r
  }

  /** The number of keys a fill of `c` with `keys` stores before the cache is full. */
  function Room<V>(c: Cache<V>, keys: seq<string>): nat
  {
    if |keys| < c.capacity - Size(c) then |keys|
    else if Size(c) <= c.capacity then c.capacity - Size(c)
    else 0
  }

  /** Filling a cache that has room with distinct new keys appends the first ones that fit,
      in order. */
  lemma {:induction false} FillAppends<V>(c: Cache<V>, keys: seq<string>, vals: seq<V>)
    requires Valid(c) && Size(c) < c.capacity && |keys| == |vals|
    requires Distinct(keys) && forall i | 0 <= i < |keys| :: keys[i] !in c.entries
    ensures Fill(c, keys, vals).recency == c.recency + keys[..Room(c, keys)]
    decreases |keys|
  {
    var n := Room(c, keys);
    if keys == [] {
      assert keys[..n] == [];
      return;
    }
    var next := Put(c, keys[0], vals[0]);
    assert next.recency == c.recency + [keys[0]] && Size(next) == Size(c) + 1
        && next.entries == c.entries[keys[0] := vals[0]] by {
      PutNewKeyWithRoom(c, keys[0], vals[0]);
    }
    if Size(next) >= c.capacity {
      assert n == 1 && keys[..1] == [keys[0]];
      return;
    }
    var tail, tailVals := keys[1..], vals[1..];
    assert Distinct(tail) && forall i | 0 <= i < |tail| :: tail[i] !in next.entries by {
      DistinctTail(keys);
    }
    FillAppends(next, tail, tailVals);
    assert Room(next, tail) == n - 1;
    TakeSplit(keys, n);
    AppendAssoc(c.recency, [keys[0]], tail[..n - 1]);
  }

  /** Filling a cache that has room with distinct new keys keeps what was cached before and
      stores each key that fits with its own value. */
  lemma {:induction false} FillStores<V>(c: Cache<V>, keys: seq<string>, vals: seq<V>)
    requires Valid(c) && Size(c) < c.capacity && |keys| == |vals|
    requires Distinct(keys) && forall i | 0 <= i < |keys| :: keys[i] !in c.entries
    ensures var r := Fill(c, keys, vals);
            && (forall k | k in c.entries :: k in r.entries && r.entries[k] == c.entries[k])
            && (forall i | 0 <= i < Room(c, keys) :: keys[i] in r.entries && r.entries[keys[i]] == vals[i])
    decreases |keys|
  {
    if keys == [] {
      return;
    }
    PutNewKeyWithRoom(c, keys[0], vals[0]);
    var next := Put(c, keys[0], vals[0]);
    if Size(next) >= c.capacity {
      return;
    }
    var tail, tailVals := keys[1..], vals[1..];
    DistinctTail(keys);
    FillStores(next, tail, tailVals);
    var r := Fill(next, tail, tailVals);
    assert Room(next, tail) == Room(c, keys) - 1;
    forall i | 0 <= i < Room(c, keys)
      ensures keys[i] in r.entries && r.entries[keys[i]] == vals[i]
    {
      if i > 0 {
        assert keys[i] == tail[i - 1] && vals[i] == tailVals[i - 1];
      }
    }
  }

  /** A hit protects an entry from the next eviction: in a full cache of capacity at least 2,
      `Promote(a)` followed by `Put` of a new key keeps `a` and evicts the least recently used
      entry, unless that entry was `a` itself, in which case the next one goes. */
  lemma HitSurvivesNextEviction<V>(c: Cache<V>, a: string, x: string, vx: V)
    requires Valid(c) && c.capacity >= 2 && Size(c) == c.capacity
    requires a in c.entries && x !in c.entries
    ensures var r := Put(Promote(c, a), x, vx);
            && a in r.entries && r.entries[a] == c.entries[a]
            && x in r.entries && r.entries[x] == vx
            && (a != c.recency[0] ==> c.recency[0] !in r.entries)
            && (a == c.recency[0] ==> c.recency[1] !in r.entries)
  {
    var p := Promote(c, a);
    PutNewKeyWhenFull(p, x, vx);
    var w := Without(c.recency, a);
    if a != c.recency[0] {
      assert w == [c.recency[0]] + Without(c.recency[1..], a);
    } else {
      DistinctTail(c.recency);
      assert w == Without(c.recency[1..], a) == c.recency[1..];
    }
    assert p.recency[0] == w[0];
  }
}

=== FILE: order.dfy ===
/** The order aggregate of internal/model/order.go: an order with one delivery record,
    one payment record and a list of line items.

    Go's `float64` fields are modelled as `real` (NaN and the infinities are not modelled),
    `int`/`int64` as unbounded `int`, and `time.Time` as an instant with its location.
 */
module OrderModel {
  import opened Errors
  import opened Seqs

  /** `time.Time`: seconds and nanoseconds of the instant, and its location, `None` for Go's
      nil location pointer. Whether a value is Go's zero `time.Time` depends on how the
      library represents it internally, so the validator takes that test as a parameter. */
  datatype Time = Time(seconds: int, nanos: int, location: Option<string>)

  datatype Delivery = Delivery(
    deliveryId: int,
    orderUid: string,
    name: string,
    phone: string,
    zip: string,
    city: string,
    address: string,
    region: string,
    email: string)

  datatype Payment = Payment(
    paymentId: int,
    orderUid: string,
    transaction: string,
    requestId: string,
    currency: string,
    provider: string,
    amount: real,
    paymentDt: int,
    bank: string,
    deliveryCost: real,
    goodsTotal: int,
    customFee: real)

  datatype Item = Item(
    itemId: int,
    orderUid: string,
    chrtId: int,
    trackNumber: string,
    price: real,
    rid: string,
    name: string,
    sale: int,
    size: string,
    totalPrice: real,
    nmId: int,
    brand: string,
    status: int)

  /** `items` is `None` for Go's nil slice and `Some(s)` for a (possibly empty) slice. */
  datatype Order = Order(
    orderUid: string,
    trackNumber: string,
    entry: string,
    locale: string,
    internalSignature: string,
    customerId: string,
    deliveryService: string,
    shardkey: string,
    smId: int,
    dateCreated: Time,
    oofShard: string,
    delivery: Delivery,
    payment: Payment,
    items: Option<seq<Item>>)

  /** Every order of `m` is stored under its own order id. */
  predicate KeyedByUid(m: map<string, Order>)
  {
    forall k | k in m :: m[k].orderUid == k
  }

  /** The order ids of a list of orders, position by position. */
  function Uids(os: seq<Order>): (r: seq<string>)
    ensures |r| == |os|
    ensures forall i | 0 <= i < |os| :: r[i] == os[i].orderUid
  {
    seq(|os|, i requires 0 <= i < |os| => os[i].orderUid)
  }

  lemma UidsTake(os: seq<Order>, n: nat)
    requires n <= |os|
    ensures Uids(os[..n]) == Uids(os)[..n]
  {
  }

  lemma UidsTail(os: seq<Order>)
    requires os != []
    ensures Uids(os[1..]) == Uids(os)[1..]
  {
  }

  /** `os` holds every value of `m` exactly once, each stored under its own order id. */
  predicate Lists(os: seq<Order>, m: map<string, Order>)
  {
    && |os| == |m|
    && Distinct(Uids(os))
    && (forall i | 0 <= i < |os| :: os[i].orderUid in m && m[os[i].orderUid] == os[i])
    && (forall k | k in m :: m[k] in os)
  }

  /** A snapshot of a map whose values are keyed by their own ids lists that map. */
  lemma ListsSnapshot(vals: seq<Order>, keys: seq<string>, m: map<string, Order>)
    requires KeyedByUid(m)
    requires Enumerates(keys, m)
    requires |vals| == |keys| == |m|
    requires forall i | 0 <= i < |vals| :: vals[i] == m[keys[i]]
    ensures Lists(vals, m)
  {
    assert Uids(vals) == keys;
    forall k | k in m
      ensures m[k] in vals
    {
      var i :| 0 <= i < |keys| && keys[i] == k;
      assert vals[i] == m[k];
    }
  }
}

=== FILE: seqs.dfy ===
/** Sequence helpers shared by the caches and the store: duplicate-free key lists,
    removal of one key, and a snapshot of a map's values in an arbitrary order (Go's
    `for _, v := range m`, whose iteration order is unspecified). */
module Seqs {

  predicate Distinct<T(==)>(s: seq<T>)
  {
    forall i, j | 0 <= i < j < |s| :: s[i] != s[j]
  }

  /** `s` with every occurrence of `x` removed, the rest in their original order. */
  function Without<T(==)>(s: seq<T>, x: T): (r: seq<T>)
    ensures forall y | y in r :: y in s && y != x
    ensures forall y | y in s && y != x :: y in r
    ensures x in s && Distinct(s) ==> |r| == |s| - 1
    ensures x !in s ==> r == s
    ensures Distinct(s) ==> Distinct(r)
  {
    if s == [] then []
    else
      var rest := Without(s[1..], x);
      assert Distinct(s) ==> Distinct(s[1..]) && s[0] !in s[1..] by {
        if Distinct(s) {
          assert forall j | 0 <= j < |s[1..]| :: s[1..][j] == s[j + 1];
        }
      }
      if s[0] == x then rest else [s[0]] + rest
  }

  /** Taking `n >= 1` elements is taking the head and then `n - 1` of the tail. */
  lemma TakeSplit<T>(s: seq<T>, n: nat)
    requires 1 <= n <= |s|
    ensures s[..n] == [s[0]] + s[1..][..n - 1]
  {
  }

  lemma TakeSnoc<T>(s: seq<T>, i: nat)
    requires i < |s|
    ensures s[..i + 1] == s[..i] + [s[i]]
  {
  }

  lemma TakeAll<T>(s: seq<T>)
    ensures s[..|s|] == s
  {
  }

  lemma AppendAssoc<T>(a: seq<T>, b: seq<T>, c: seq<T>)
    ensures (a + b) + c == a + (b + c)
  {
  }

  /** The parts of a list with one element appended. */
  lemma SnocParts<T>(s: seq<T>, x: T)
    ensures (s + [x])[..|s|] == s && (s + [x])[|s|] == x
  {
  }

  lemma LastSplit<T>(s: seq<T>)
    requires s != []
    ensures s == s[..|s| - 1] + [s[|s| - 1]]
  {
  }

  /** Extending the last list of `front + [last + v]` by `c`. */
  lemma ExtendLast<T>(front: seq<seq<T>>, last: seq<T>, v: seq<T>, c: T)
    ensures var mid := front + [last + v];
            mid[..|mid| - 1] + [mid[|mid| - 1] + [c]] == front + [last + (v + [c])]
  {
    SnocParts(front, last + v);
    AppendAssoc(last, v, [c]);
  }

  /** The tail of a duplicate-free list is duplicate-free and does not hold the head. */
  lemma DistinctTail<T>(s: seq<T>)
    requires Distinct(s) && s != []
    ensures Distinct(s[1..])
    ensures forall i | 0 <= i < |s| - 1 :: s[1..][i] == s[i + 1] != s[0]
  {
  }

  /** The position of the last occurrence of `x` in `s`. */
  function LastIndex<T(==)>(s: seq<T>, x: T): (i: nat)
    requires x in s
    ensures i < |s| && s[i] == x
    ensures forall j | i < j < |s| :: s[j] != x
    decreases |s|
  {
    if s[|s| - 1] == x then |s| - 1
    else
      assert x in s[..|s| - 1] by {
        var j :| 0 <= j < |s| && s[j] == x;
        assert s[..|s| - 1][j] == x;
      }
      LastIndex(s[..|s| - 1], x)
  }

  /** Maps with the same keys and the same value at every key are equal. */
  lemma MapsEqual<K, V>(a: map<K, V>, b: map<K, V>)
    requires forall k | k in a :: k in b && a[k] == b[k]
    requires forall k | k in b :: k in a
    ensures a == b
  {
  }

  /** A duplicate-free list has as many elements as the set of its elements. */
  lemma {:induction false} DistinctCardinality<T>(s: seq<T>)
    requires Distinct(s)
    ensures |set x | x in s| == |s|
  {
    if s != [] {
      DistinctCardinality(s[1..]);
      assert (set x | x in s) == {s[0]} + (set x | x in s[1..]);
      assert s[0] !in s[1..];
    }
  }

  /** `keys` lists the keys of `m`, each exactly once. */
  predicate Enumerates<K, V>(keys: seq<K>, m: map<K, V>)
  {
    && Distinct(keys)
    && (forall k | k in keys :: k in m)
    && (forall k | k in m :: k in keys)
  }

  /** Collects the values of `m`, one per key, in whatever order the keys are picked.
      `keys` records that order. */
  method Snapshot<K, V>(m: map<K, V>) returns (vals: seq<V>, ghost keys: seq<K>)
    ensures Enumerates(keys, m)
    ensures |vals| == |keys| == |m|
    ensures forall i | 0 <= i < |vals| :: vals[i] == m[keys[i]]
  {
    var rest := m.Keys;
    vals, keys := [], [];
    while rest != {}
      invariant rest <= m.Keys
      invariant Distinct(keys)
      invariant forall k | k in keys :: k in m && k !in rest
      invariant forall k | k in m && k !in rest :: k in keys
      invariant |keys| + |rest| == |m|
      invariant |vals| == |keys|
      invariant forall i | 0 <= i < |vals| :: keys[i] in m && vals[i] == m[keys[i]]
      decreases rest
    {
      var k :| k in rest;
      vals, keys := vals + [m[k]], keys + [k];
      rest := rest - {k};
    }
  }

  /** Dropping the first `n` keys of an enumeration, together with exactly their entries,
      leaves an enumeration of what remains. */
  lemma DropFront<K, V>(keys: seq<K>, m: map<K, V>, n: nat, m': map<K, V>)
    requires Enumerates(keys, m) && n <= |keys|
    requires forall k | k in m' :: k in m
    requires forall k | k in m :: k in m' <==> k !in keys[..n]
    ensures Enumerates(keys[n..], m')
  {
    var rest := keys[n..];
    assert forall i | 0 <= i < |rest| :: rest[i] == keys[n + i];
    assert forall i | 0 <= i < n :: keys[..n][i] == keys[i];
    forall k | k in rest
      ensures k in m'
    {
      var j :| 0 <= j < |rest| && rest[j] == k;
      assert forall i | 0 <= i < n :: keys[i] != keys[n + j];
    }
    forall k | k in m'
      ensures k in rest
    {
      var j :| 0 <= j < |keys| && keys[j] == k;
      assert rest[j - n] == k;
    }
  }
}

=== FILE: service.dfy ===
/** The order service of internal/service/service.go: writes go to the durable store first and
    then to the bounded cache; reads are cache-aside (cache first, then the store, whose answer
    is copied into the cache).

    The store's failures are chosen by fault arguments, so each contract covers every way the
    store can answer. `calls` records which collaborator operations ran, in order.
 */
module OrderService {
  import opened Errors
  import opened OrderModel
  import opened Trace
  import DurableStore
  import CacheRepository

  datatype Service = Service(db: DurableStore.Store, cache: CacheRepository.OrderCache)

  predicate Valid(s: Service)
  {
    DurableStore.Valid(s.db) && CacheRepository.Valid(s.cache)
  }

  /** Every cached order is the store's current row for its id. */
  predicate Coherent(s: Service)
  {
    forall k | k in s.cache.entries :: k in s.db.rows && s.db.rows[k] == s.cache.entries[k]
  }

  /** `SaveOrder`: the store is written first. A store failure is returned as it is, with the
      cache untouched and not consulted. After a store success the cache is written; a cache
      failure (the context ended) is returned, although the order is already durable. */
  function SaveOrder(s: Service, ctx: Context, o: Order, dbFault: Option<Error>): (r: Outcome<Service, Status>)
    requires Valid(s)
    ensures Valid(r.state)
    ensures dbFault.Some? ==> r == Outcome(s, Failed(dbFault.value), [DbSave])
    ensures dbFault.None? ==>
              && r.calls == [DbSave, CacheSave]
              && o.orderUid in r.state.db.rows && r.state.db.rows[o.orderUid] == o
    ensures dbFault.None? && ctx.Live? ==>
              && r.result == Done
              && o.orderUid in r.state.cache.entries && r.state.cache.entries[o.orderUid] == o
    ensures dbFault.None? && !ctx.Live? ==>
              && r.result == Failed(Wrapped("save error", ctx.Err().value))
              && r.state.cache == s.cache
  {
    var (db, dbStatus) := DurableStore.Save(s.db, o, dbFault);
    if dbStatus.Failed? then
      Outcome(s, dbStatus, [DbSave])
    else
      var (cache, cacheStatus) := CacheRepository.Save(s.cache, ctx, o);
      Outcome(Service(db, cache), cacheStatus, [DbSave, CacheSave])
  }

  /** The cache answers `GetOrderByID` exactly when the context is live and the id is cached. */
  predicate Hit(s: Service, ctx: Context, id: string)
  {
    ctx.Live? && id in s.cache.entries
  }

  /** `GetOrderByID`: on a hit, the cached order, without reading the store. On a miss (which
      includes an ended context) the store's answer is returned unchanged; only a found order
      is copied into the cache, and a failure of that copy is ignored. The store is never
      written. */
  function GetOrderByID(s: Service, ctx: Context, id: string, readFault: DurableStore.ReadFault)
    : (r: Outcome<Service, Result<Option<Order>>>)
    requires Valid(s)
    ensures Valid(r.state) && r.state.db == s.db
    ensures Hit(s, ctx, id) ==>
              && r.result == Ok(Some(s.cache.entries[id]))
              && r.calls == [CacheGet]
              && r.state.cache.entries == s.cache.entries
    ensures !Hit(s, ctx, id) && !(readFault.Served? && id in s.db.rows) ==>
              && r.calls == [CacheGet, DbGet]
              && r.state == s
              && (readFault.Failing? ==> r.result == Err(readFault.error))
              && (readFault.NilOrder? ==> r.result == Ok(None))
              && (readFault.Served? ==> r.result == Err(NotFound))
    ensures !Hit(s, ctx, id) && readFault.Served? && id in s.db.rows ==>
              && r.calls == [CacheGet, DbGet, CacheSave]
              && r.result == Ok(Some(s.db.rows[id]))
              && (ctx.Live? ==> id in r.state.cache.entries && r.state.cache.entries[id] == s.db.rows[id])
              && (!ctx.Live? ==> r.state.cache == s.cache)
  {
    var (cache, cached) := CacheRepository.GetByID(s.cache, ctx, id);
    if cached.Ok? then
      Outcome(Service(s.db, cache), Ok(Some(cached.value)), [CacheGet])
    else
      var stored := DurableStore.GetByID(s.db, id, readFault);
      if stored.Ok? && stored.value.Some? then
        var (cache', _) := CacheRepository.Save(cache, ctx, stored.value.value);
        Outcome(Service(s.db, cache'), stored, [CacheGet, DbGet, CacheSave])
      else
        Outcome(Service(s.db, cache), stored, [CacheGet, DbGet])
  }

  // ---------------------------------------------------------------------------
  // Properties relating several operations
  // ---------------------------------------------------------------------------

  /** Reads keep the cache coherent with the store: what they copy into the cache is the
      store's row. */
  lemma GetKeepsCoherence(s: Service, ctx: Context, id: string, readFault: DurableStore.ReadFault)
    requires Valid(s) && Coherent(s)
    ensures Coherent(GetOrderByID(s, ctx, id, readFault).state)
  {
    var r := GetOrderByID(s, ctx, id, readFault);
    forall k | k in r.state.cache.entries
      ensures k in s.db.rows && s.db.rows[k] == r.state.cache.entries[k]
    {
      if !Hit(s, ctx, id) && readFault.Served? && id in s.db.rows && ctx.Live? && k == id {
        assert r.state.cache.entries[k] == s.db.rows[id];
      }
    }
  }

  /** A write whose store step fails, or whose context is still live for the cache step,
      keeps the cache coherent with the store. */
  lemma SaveKeepsCoherence(s: Service, ctx: Context, o: Order, dbFault: Option<Error>)
    requires Valid(s) && Coherent(s)
    requires dbFault.Some? || ctx.Live?
    ensures Coherent(SaveOrder(s, ctx, o, dbFault).state)
  {
  }

  /** A context that ends between the store write and the cache write leaves the cache serving
      the previous version of the order: the caller gets an error, the store holds the new
      order, and a later live read returns the old one. */
  lemma LateCancelLeavesStaleEntry(s: Service, o: Order)
    requires Valid(s) && o.orderUid in s.cache.entries && s.cache.entries[o.orderUid] != o
    ensures var w := SaveOrder(s, Cancelled, o, None);
            && w.result.Failed?
            && w.state.db.rows[o.orderUid] == o
            && GetOrderByID(w.state, Live, o.orderUid, DurableStore.Served).result
               == Ok(Some(s.cache.entries[o.orderUid]))
            && !Coherent(w.state)
  {
  }

  /** Cache-aside: a miss served by the store fills the cache, so the next read of the same
      id with a live context is a hit that does not touch the store, whatever the store
      would have answered. */
  lemma MissThenHit(s: Service, id: string, fault: DurableStore.ReadFault)
    requires Valid(s) && id !in s.cache.entries && id in s.db.rows
    ensures var first := GetOrderByID(s, Live, id, DurableStore.Served);
            var second := GetOrderByID(first.state, Live, id, fault);
            && first.calls == [CacheGet, DbGet, CacheSave]
            && second.calls == [CacheGet]
            && second.result == first.result == Ok(Some(s.db.rows[id]))
  {
  }

  /** Read-your-writes: after a fully successful save, reading the id is a cache hit that
      returns the saved order without touching the store. */
  lemma SaveThenRead(s: Service, o: Order, fault: DurableStore.ReadFault)
    requires Valid(s)
    ensures var w := SaveOrder(s, Live, o, None);
            var g := GetOrderByID(w.state, Live, o.orderUid, fault);
            && w.result == Done
            && g.calls == [CacheGet]
            && g.result == Ok(Some(o))
  {
  }
}

=== FILE: store.dfy ===
/** The durable store collaborator (`IDBRepository` / `orders.Repository`), reduced to its rows
    keyed by order id. Its SQL transactions are not modelled: each call either applies to the
    rows or fails with an error that the caller chooses through a fault argument. */
module DurableStore {
  import opened Errors
  import opened OrderModel
  import opened Seqs

  datatype Store = Store(rows: map<string, Order>)

  /** Every row is stored under its own order id. */
  predicate Valid(s: Store)
  {
    KeyedByUid(s.rows)
  }

  /** How a `GetByID` call behaves: answer from the rows, fail with `error`, or return
      neither an order nor an error (Go's `(nil, nil)`). */
  datatype ReadFault = Served | Failing(error: Error) | NilOrder

  /** `Save`: an upsert of the order's row (`INSERT ... ON CONFLICT DO UPDATE`), unless the
      fault makes the transaction fail, in which case nothing is written. */
  function Save(s: Store, o: Order, fault: Option<Error>): (r: (Store, Status))
    requires Valid(s)
    ensures Valid(r.0)
    ensures fault.Some? ==> r == (s, Failed(fault.value))
    ensures fault.None? ==> r.1 == Done && o.orderUid in r.0.rows && r.0.rows[o.orderUid] == o
    ensures forall k | k in s.rows && k != o.orderUid :: k in r.0.rows && r.0.rows[k] == s.rows[k]
    ensures forall k | k in r.0.rows && k != o.orderUid :: k in s.rows
  {
    match fault
    case Some(e) => (s, Failed(e))
    case None => (Store(s.rows[o.orderUid := o]), Done)
  }

  /** `GetByID`: `Some(order)` is a non-nil pointer, `None` a nil one. */
  function GetByID(s: Store, id: string, fault: ReadFault): (r: Result<Option<Order>>)
    requires Valid(s)
    ensures fault.Failing? ==> r == Err(fault.error)
    ensures fault.NilOrder? ==> r == Ok(None)
    ensures fault.Served? && id !in s.rows ==> r == Err(NotFound)
    ensures fault.Served? && id in s.rows ==> r == Ok(Some(s.rows[id])) && r.value.value.orderUid == id
  {
    match fault
    case Failing(e) => Err(e)
    case NilOrder => Ok(None)
    case Served => if id in s.rows then Ok(Some(s.rows[id])) else Err(NotFound)
  }

  /** `GetAll`: every row once, in the order the scan yields them, or the fault. */
  method GetAll(s: Store, fault: Option<Error>) returns (r: Result<seq<Order>>)
    requires Valid(s)
    ensures fault.Some? ==> r == Err(fault.value)
    ensures fault.None? ==> r.Ok? && Lists(r.value, s.rows)
  {
    if fault.Some? {
      return Err(fault.value);
    }
    var vals;
    ghost var keys;
    vals, keys := Snapshot(s.rows);
    ListsSnapshot(vals, keys, s.rows);
    r := Ok(vals);
  }
}

=== FILE: trace.dfy ===
/** Observable collaborator calls, so that the services' contracts can say which
    collaborator was consulted, and in what order. */
module Trace {

  datatype Call = DbSave | DbGet | CacheSave | CacheGet

  /** What a service operation leaves behind: the collaborators' new state, the value
      returned to the caller, and the calls made, in order. */
  datatype Outcome<S, T> = Outcome(state: S, result: T, calls: seq<Call>)
}

=== FILE: validation.dfy ===
/** The structural validator that the `validate:` struct tags of internal/model/order.go define.

    Two definitions are given and proved to agree:
      - `OrderValid` and friends state each tag as a plain rule on the field;
      - `OrderErrors` and friends produce what `validator.Struct` reports: one `FieldError` per
        failing field, in field order, naming the first tag of that field that fails.
    Tag meanings: `required` on a string is "non-empty", on a number "non-zero", on a
    `time.Time` "not the zero time", on a slice "not nil"; `min=1` on a slice is "at least one
    element"; `dive` validates every element; `-` and a lone `omitempty` impose nothing.
    `required` on the non-pointer structs `Delivery` and `Payment` imposes nothing by itself
    (the validator's default), but their fields are always validated.
    The e-mail syntax check of the validator library is the parameter `isEmail`, and the
    library's test for the zero `time.Time` (the whole struct, location included) is the
    parameter `isZeroTime`.
 */
module Validation {
  import opened Errors
  import opened OrderModel

  datatype Tag = Required | Gte | Lte | Min | Email

  /** One entry of `validator.ValidationErrors`: the struct field name and the failing tag. */
  datatype FieldError = FieldError(field: string, tag: Tag)

  // ---------------------------------------------------------------------------
  // The rules, one conjunct per tagged field
  // ---------------------------------------------------------------------------

  predicate ItemValid(it: Item)
  {
    && it.chrtId >= 1
    && it.trackNumber != ""
    && it.price >= 0.0
    && 0 <= it.sale <= 100
    && it.totalPrice >= 0.0
    && it.nmId >= 0
    && it.status >= 0
  }

  predicate AllItemsValid(items: seq<Item>)
  {
    forall i | 0 <= i < |items| :: ItemValid(items[i])
  }

  predicate DeliveryValid(d: Delivery, isEmail: string -> bool)
  {
    && d.name != ""
    && d.phone != ""
    && d.zip != ""
    && d.city != ""
    && d.address != ""
    && d.region != ""
    && d.email != "" && isEmail(d.email)
  }

  predicate PaymentValid(p: Payment)
  {
    && p.transaction != ""
    && p.currency != ""
    && p.provider != ""
    && p.amount >= 0.0
    && p.paymentDt >= 0
    && p.bank != ""
    && p.deliveryCost >= 0.0
    && p.goodsTotal >= 0
    && p.customFee >= 0.0
  }

  predicate OrderValid(o: Order, isEmail: string -> bool, isZeroTime: Time -> bool)
  {
    && o.orderUid != ""
    && o.customerId != ""
    && o.smId >= 0
    && !isZeroTime(o.dateCreated)
    && o.oofShard != ""
    && DeliveryValid(o.delivery, isEmail)
    && PaymentValid(o.payment)
    && o.items.Some?
    && |o.items.value| >= 1
    && AllItemsValid(o.items.value)
  }

  // ---------------------------------------------------------------------------
  // The validator's report
  // ---------------------------------------------------------------------------

  /** The report for a field with a single tag. */
  function Check(field: string, ok: bool, tag: Tag): seq<FieldError>
  {
    if ok then [] else [FieldError(field, tag)]
  }

  /** A report for every failing rule of one item; `required` is tried before `gte=1`,
      and `gte=0` before `lte=100`. */
  function ItemErrors(it: Item): (r: seq<FieldError>)
    ensures r == [] <==> ItemValid(it)
  {
    (if it.chrtId == 0 then [FieldError("ChrtID", Required)]
     else if it.chrtId < 1 then [FieldError("ChrtID", Gte)]
     else [])
    + Check("TrackNumber", it.trackNumber != "", Required)
    + Check("Price", it.price >= 0.0, Gte)
    + (if it.sale < 0 then [FieldError("Sale", Gte)]
       else if it.sale > 100 then [FieldError("Sale", Lte)]
       else [])
    + Check("TotalPrice", it.totalPrice >= 0.0, Gte)
    + Check("NmID", it.nmId >= 0, Gte)
    + Check("Status", it.status >= 0, Gte)
  }

  /** `dive`: the reports of all items, in order. */
  function ItemsErrors(items: seq<Item>): (r: seq<FieldError>)
    ensures r == [] <==> AllItemsValid(items)
    ensures forall i | 0 <= i < |items| :: items[i].chrtId == 0 ==> FieldError("ChrtID", Required) in r
  {
    if items == [] then []
    else
      var rest := ItemsErrors(items[1..]);
      assert forall i | 1 <= i < |items| :: items[i] == items[1..][i - 1];
      ItemErrors(items[0]) + rest
  }

  function DeliveryErrors(d: Delivery, isEmail: string -> bool): (r: seq<FieldError>)
    ensures r == [] <==> DeliveryValid(d, isEmail)
  {
    Check("Name", d.name != "", Required)
    + Check("Phone", d.phone != "", Required)
    + Check("Zip", d.zip != "", Required)
    + Check("City", d.city != "", Required)
    + Check("Address", d.address != "", Required)
    + Check("Region", d.region != "", Required)
    + (if d.email == "" then [FieldError("Email", Required)]
       else if !isEmail(d.email) then [FieldError("Email", Email)]
       else [])
  }

  function PaymentErrors(p: Payment): (r: seq<FieldError>)
    ensures r == [] <==> PaymentValid(p)
  {
    Check("Transaction", p.transaction != "", Required)
    + Check("Currency", p.currency != "", Required)
    + Check("Provider", p.provider != "", Required)
    + Check("Amount", p.amount >= 0.0, Gte)
    + Check("PaymentDt", p.paymentDt >= 0, Gte)
    + Check("Bank", p.bank != "", Required)
    + Check("DeliveryCost", p.deliveryCost >= 0.0, Gte)
    + Check("GoodsTotal", p.goodsTotal >= 0, Gte)
    + Check("CustomFee", p.customFee >= 0.0, Gte)
  }

  /** The report for the order's own scalar fields. */
  function HeaderErrors(o: Order, isZeroTime: Time -> bool): (r: seq<FieldError>)
    ensures r == [] <==> (o.orderUid != "" && o.customerId != "" && o.smId >= 0
                          && !isZeroTime(o.dateCreated) && o.oofShard != "")
  {
    Check("OrderUID", o.orderUid != "", Required)
    + Check("CustomerID", o.customerId != "", Required)
    + Check("SmID", o.smId >= 0, Gte)
    + Check("DateCreated", !isZeroTime(o.dateCreated), Required)
    + Check("OofShard", o.oofShard != "", Required)
  }

  /** The report for `Items`: `required` catches a nil slice, `min=1` an empty one, and
      otherwise `dive` reports the items. */
  function ItemsFieldErrors(items: Option<seq<Item>>): (r: seq<FieldError>)
    ensures r == [] <==> (items.Some? && |items.value| >= 1 && AllItemsValid(items.value))
  {
    match items
    case None => [FieldError("Items", Required)]
    case Some(s) => if |s| < 1 then [FieldError("Items", Min)] else ItemsErrors(s)
  }

  /** `validate.Struct(o)`: the empty report is Go's `nil` error. */
  function OrderErrors(o: Order, isEmail: string -> bool, isZeroTime: Time -> bool): (r: seq<FieldError>)
    ensures r == [] <==> OrderValid(o, isEmail, isZeroTime)
  {
    HeaderErrors(o, isZeroTime)
    + DeliveryErrors(o.delivery, isEmail)
    + PaymentErrors(o.payment)
    + ItemsFieldErrors(o.items)
  }

  // ---------------------------------------------------------------------------
  // Properties of the tags, rule by rule
  // ---------------------------------------------------------------------------

  /** Each order-level rule is reported against its own field and tag. */
  lemma OrderFieldViolations(o: Order, isEmail: string -> bool, isZeroTime: Time -> bool)
    ensures o.orderUid == "" ==> FieldError("OrderUID", Required) in OrderErrors(o, isEmail, isZeroTime)
    ensures o.customerId == "" ==> FieldError("CustomerID", Required) in OrderErrors(o, isEmail, isZeroTime)
    ensures o.oofShard == "" ==> FieldError("OofShard", Required) in OrderErrors(o, isEmail, isZeroTime)
    ensures o.smId < 0 ==> FieldError("SmID", Gte) in OrderErrors(o, isEmail, isZeroTime)
    ensures isZeroTime(o.dateCreated) ==> FieldError("DateCreated", Required) in OrderErrors(o, isEmail, isZeroTime)
    ensures o.items.None? ==> FieldError("Items", Required) in OrderErrors(o, isEmail, isZeroTime)
    ensures o.items == Some([]) ==> FieldError("Items", Min) in OrderErrors(o, isEmail, isZeroTime)
  {
    var head, tail := HeaderErrors(o, isZeroTime), ItemsFieldErrors(o.items);
    var r := OrderErrors(o, isEmail, isZeroTime);
    assert forall e | e in head :: e in r;
    assert forall e | e in tail :: e in r;
  }

  /** `dive`: one item with `ChrtID == 0` makes the whole order invalid and is reported as
      `required` on `ChrtID`, whatever the other items are. */
  lemma {:induction false} DiveReportsBadItem(o: Order, isEmail: string -> bool, isZeroTime: Time -> bool, k: nat)
    requires o.items.Some? && k < |o.items.value|
    requires o.items.value[k].chrtId == 0
    ensures FieldError("ChrtID", Required) in OrderErrors(o, isEmail, isZeroTime)
    ensures !OrderValid(o, isEmail, isZeroTime)
  {
    var s := o.items.value;
    assert FieldError("ChrtID", Required) in ItemsErrors(s);
    assert FieldError("ChrtID", Required) in ItemsFieldErrors(o.items);
  }

  /** The item rules as the tests state them: `ChrtID == 0` fails `required` (not `gte`),
      a negative `ChrtID` fails `gte`, an empty track number fails `required`, and a sale
      outside 0..100 fails `gte` or `lte`. */
  lemma ItemFieldViolations(it: Item)
    ensures it.chrtId == 0 ==>
              FieldError("ChrtID", Required) in ItemErrors(it) && FieldError("ChrtID", Gte) !in ItemErrors(it)
    ensures it.chrtId < 0 ==> FieldError("ChrtID", Gte) in ItemErrors(it)
    ensures it.trackNumber == "" ==> FieldError("TrackNumber", Required) in ItemErrors(it)
    ensures it.sale > 100 ==> FieldError("Sale", Lte) in ItemErrors(it)
    ensures it.sale < 0 ==> FieldError("Sale", Gte) in ItemErrors(it)
  {
  }

  /** The minimal valid item: only `ChrtID >= 1` and a track number are needed; zero price,
      sale, total price, nm id and status pass. */
  lemma MinimalItemIsValid(chrtId: int, trackNumber: string, rid: string, name: string, size: string, brand: string)
    requires chrtId >= 1 && trackNumber != ""
    ensures ItemValid(Item(0, "", chrtId, trackNumber, 0.0, rid, name, 0, size, 0.0, 0, brand, 0))
    ensures ItemErrors(Item(0, "", chrtId, trackNumber, 0.0, rid, name, 0, size, 0.0, 0, brand, 0)) == []
  {
  }

  /** Fields tagged `-` or with a lone `omitempty` never change the report. */
  lemma UntaggedFieldsIgnored(o: Order, isEmail: string -> bool, isZeroTime: Time -> bool,
                              trackNumber: string, entry: string, locale: string, internalSignature: string,
                              deliveryService: string, shardkey: string,
                              deliveryId: int, paymentId: int, requestId: string, owner: string)
    ensures var o' := o.(trackNumber := trackNumber, entry := entry, locale := locale,
                         internalSignature := internalSignature, deliveryService := deliveryService,
                         shardkey := shardkey,
                         delivery := o.delivery.(deliveryId := deliveryId, orderUid := owner),
                         payment := o.payment.(paymentId := paymentId, orderUid := owner, requestId := requestId));
            OrderErrors(o', isEmail, isZeroTime) == OrderErrors(o, isEmail, isZeroTime)
  {
    var o' := o.(trackNumber := trackNumber, entry := entry, locale := locale,
                 internalSignature := internalSignature, deliveryService := deliveryService,
                 shardkey := shardkey,
                 delivery := o.delivery.(deliveryId := deliveryId, orderUid := owner),
                 payment := o.payment.(paymentId := paymentId, orderUid := owner, requestId := requestId));
    assert HeaderErrors(o', isZeroTime) == HeaderErrors(o, isZeroTime);
    assert DeliveryErrors(o'.delivery, isEmail) == DeliveryErrors(o.delivery, isEmail);
    assert PaymentErrors(o'.payment) == PaymentErrors(o.payment);
    assert o'.items == o.items;
  }

  /** The same for the untagged fields of an item. */
  lemma UntaggedItemFieldsIgnored(it: Item, itemId: int, owner: string, rid: string, name: string, size: string, brand: string)
    ensures ItemErrors(it.(itemId := itemId, orderUid := owner, rid := rid, name := name, size := size, brand := brand))
            == ItemErrors(it)
  {
  }

  /** Every string field of `Delivery` and `Payment` tagged `required` must be non-empty. */
  lemma RequiredNestedFields(o: Order, isEmail: string -> bool, isZeroTime: Time -> bool)
    requires OrderValid(o, isEmail, isZeroTime)
    ensures o.delivery.name != "" && o.delivery.phone != "" && o.delivery.zip != ""
    ensures o.delivery.city != "" && o.delivery.address != "" && o.delivery.region != ""
    ensures o.delivery.email != ""
    ensures o.payment.transaction != "" && o.payment.currency != ""
    ensures o.payment.provider != "" && o.payment.bank != ""
  {
  }
}
